=== FILE: README.md ===
# LocalLibrary catalog, modelled in Dafny

This project models the `catalog` application of LocalLibrary, a small Django
library site. Two parts are modelled: the catalog's data models and the
application's URL table.

- Models (`models.py`): covers, genres, languages, authors, books and book
  copies (`BookInstance`), plus the borrower accounts they refer to. The model
  covers:
  - the column rules a validated save enforces, in column order:
    - required columns: a column without `blank=True` rejects the empty value
    - `max_length` limits
    - the 2 MB image-size validator
    - the loan-status choices
    - foreign keys that must name an existing row
  - the uniqueness rules: ISBN; `(title, author)`; `(first_name, last_name, date_of_birth)`; the copy id
  - the `on_delete` behaviour of every foreign key: `SET_NULL` for author, language and borrower, `RESTRICT` for a copy's book
  - the helpers the models declare: the `__str__` forms, `display_genre`, `is_overdue`, `get_absolute_url` and the `due_back` ordering
- URL table (`urls.py`): first-match resolution of a path to a route name and
  key, and `reverse`, which turns a route name and key back into a path.

The store is an immutable value. Every operation except `Saving.AddUser`,
which cannot fail, returns `Result<…, Error>`. A refused operation names the
first rule the new row breaks, and it produces no new store. The rules are
checked in this order:

1. each column in declaration order, its requiredness before its other rules
2. the composite `unique_together` rule (for books, `(title, author)`)
3. the single-column uniqueness rules (for books, the ISBN)
4. for books, the existence of the attached genres, which the program adds
   only after the book is saved

The string forms of a genre, a language and a book (`__str__` at
`models.py` lines 37-39, 47-49 and 93-95) return the `name` or `title` column
unchanged, so the model reads that field directly.

Modules, one per file:

| file | module | contents |
|---|---|---|
| `wrappers.dfy` | `Wrappers` | `Option`, `Result` |
| `fields.dfy` | `Fields` | image validator, length limits, loan status codes |
| `digits.dfy` | `Digits` | decimal numerals: `\d+` captures and `str(id)` |
| `urls.dfy` | `Urls` | URL table, resolve, reverse |
| `models.dfy` | `Models` | entity datatypes, string forms, genre summary, overdue test, canonical URLs, ordering |
| `catalog.dfy` | `Catalog` | the store, errors, row rules, the store invariant `Valid` |
| `saving.dfy` | `Saving` | adding rows |
| `deleting.dfy` | `Deleting` | deleting rows |

Two consequences of the code that are easy to miss:

- **Blank status.** The status column declares `blank=True`, so validation
  accepts the blank value as well as the four codes `d`, `o`, `a`, `r`.
  `Fields.StatusDomain` states this five-value domain.
- **Uniqueness with nulls.** The composite rules are declared with
  `unique_together`, and Django does not check such a rule when one of its
  columns is null. Two cases follow:
  - an author without a date of birth never collides on name
  - a book whose author was deleted has a null author, so it never collides on `(title, author)`

## Model

| member | source | states |
|---|---|---|
| Fields.ValidateImage | locallibrary/locallibrary/catalog/models.py:17-20 | an upload is accepted exactly when its size is at most 2 097 152 bytes |
| Fields.ValidateImageBoundary | locallibrary/locallibrary/catalog/models.py:18-19 | exactly 2 MB passes and one byte more is rejected |
| Fields.ValidateImageMonotone | locallibrary/locallibrary/catalog/models.py:69-72 | a file no larger than an accepted file is accepted |
| Fields.FromCode | locallibrary/locallibrary/catalog/models.py:121-126 | a stored code read back as a loan state is that state's one-character code |
| Fields.CodeRoundTrip | locallibrary/locallibrary/catalog/models.py:121-126 | every loan state is read back from its own code |
| Fields.CodeInjective | locallibrary/locallibrary/catalog/models.py:121-126 | no two loan states share a code |
| Fields.DefaultIsMaintenance | locallibrary/locallibrary/catalog/models.py:128-133 | the column default reads as Maintenance and passes validation |
| Fields.StatusDomain | locallibrary/locallibrary/catalog/models.py:128-133 | validation admits exactly the blank value and the codes d, o, a, r |
| Digits.ShowNat | locallibrary/locallibrary/catalog/models.py:91 | `str(id)` is a non-empty run of digits with no leading zero unless the number is 0 |
| Digits.ParseShowNat | locallibrary/locallibrary/catalog/urls.py:13 | reading the digits `str(id)` prints gives the id back |
| Digits.ShowNatInjective | locallibrary/locallibrary/catalog/models.py:159 | distinct ids print as distinct numerals |
| Urls.MatchPattern | locallibrary/locallibrary/catalog/urls.py:9-17 | a literal pattern matches only its own text and captures nothing; a numbered pattern matches exactly its prefix followed by digits and captures their value |
| Urls.ResolveIn | locallibrary/locallibrary/catalog/urls.py:5-21 | no result iff no entry matches; otherwise the result comes from an entry that matches, with no earlier entry matching |
| Urls.FirstMatchWins | locallibrary/locallibrary/catalog/urls.py:5-21 | the first matching entry decides the result, whatever later entries would say |
| Urls.ResolveCatalogTable | locallibrary/locallibrary/catalog/urls.py:5-21 | the result for each kind of path against the catalog's seven entries, and no result for any other path |
| Urls.Resolve | locallibrary/locallibrary/catalog/urls.py:5-21 | each of the six routes resolves for exactly its paths; a detail route captures the decimal value after its prefix; every other path resolves to nothing |
| Urls.EntryMatchResolves | locallibrary/locallibrary/catalog/urls.py:5-21 | any entry that matches a path agrees with the resolved name and key |
| Urls.MatchesAgree | locallibrary/locallibrary/catalog/urls.py:6-9 | two different entries match the same path only for the empty path, and both are "index" |
| Urls.NamesOnlyRepeatForIndex | locallibrary/locallibrary/catalog/urls.py:6-9 | the only name registered twice is "index", both times for the empty path |
| Urls.Generate | locallibrary/locallibrary/catalog/urls.py:13-17 | a pattern yields a path iff the argument fits (a key exactly for a numbered pattern); a literal pattern yields its text and a numbered one its prefix followed by `str` of the key; that path matches the pattern with the same key |
| Urls.ReverseIn | locallibrary/locallibrary/catalog/urls.py:5-21 | reversal yields a path generated by an entry of that name, and fails only when no entry of the name fits the argument |
| Urls.EntryArity | locallibrary/locallibrary/catalog/urls.py:9-20 | the plain routes are exactly the literal patterns and the detail routes exactly the numbered ones |
| Urls.ReverseInFinds | locallibrary/locallibrary/catalog/urls.py:5-21 | reversal succeeds when some entry of the name fits the argument |
| Urls.ReverseCatalogDefined | locallibrary/locallibrary/catalog/urls.py:5-21 | reversal succeeds iff the name is a plain route called without a key or a detail route called with one |
| Urls.ReverseCatalogSound | locallibrary/locallibrary/catalog/urls.py:5-21 | every path reversal produces resolves to the same name and key |
| Urls.Reverse | locallibrary/locallibrary/catalog/urls.py:5-21 | defined iff the name and arity match a route; the path it gives resolves back to that name and key |
| Urls.EntryOfName | locallibrary/locallibrary/catalog/urls.py:6-17 | "book-detail" and "author-detail" each sit at one position, and "index" is among the first two entries |
| Urls.ReverseDetail | locallibrary/locallibrary/catalog/urls.py:13-17 | reversing a detail route gives "book/" or "author/" followed by `str` of the key |
| Urls.ReverseIndex | locallibrary/locallibrary/catalog/urls.py:6-9 | "index" reverses to the empty path |
| Urls.ResolveThenReverse | locallibrary/locallibrary/catalog/urls.py:5-21 | every resolved path can be reversed, and the reversed path resolves to the same result |
| Urls.ResolveWithoutSlash | locallibrary/locallibrary/catalog/urls.py:10-20 | the list routes without their trailing slash resolve to nothing |
| Urls.ResolveMalformedDetail | locallibrary/locallibrary/catalog/urls.py:13 | a detail path without digits, or with anything after them, resolves to nothing |
| Urls.ResolveLeadingZeros | locallibrary/locallibrary/catalog/urls.py:13 | "book/007" resolves to the book with key 7 |
| Models.AuthorStr | locallibrary/locallibrary/catalog/models.py:161-163 | the form is the last name, then ", ", then the first name |
| Models.AuthorStrFirstComma | locallibrary/locallibrary/catalog/models.py:161-163 | when the last name has no comma, the first comma of the form directly follows it |
| Models.AuthorStrInjective | locallibrary/locallibrary/catalog/models.py:161-163 | for last names without a comma, the form determines both names |
| Models.InstanceStr | locallibrary/locallibrary/catalog/models.py:139-141 | no form iff the copy's book is null; otherwise the id, " (", the book's title, then ")" |
| Models.InstanceStrInjective | locallibrary/locallibrary/catalog/models.py:100-141 | for ids of equal length, the form determines the id and the title |
| Models.JoinLength | locallibrary/locallibrary/catalog/models.py:85 | a join's length is the sum of the names plus one separator between each pair |
| Models.JoinShort | locallibrary/locallibrary/catalog/models.py:85 | joins of two and three names, spelled out |
| Models.Shown | locallibrary/locallibrary/catalog/models.py:85 | the summary shows all the names when there are at most three, and otherwise exactly the first three |
| Models.DisplayGenre | locallibrary/locallibrary/catalog/models.py:83-85 | the summary is empty, one name, or the first two or three names separated by ", " |
| Models.DisplayGenreLength | locallibrary/locallibrary/catalog/models.py:85 | the summary's length is the shown names' lengths plus two characters per separator |
| Models.DisplayGenreIgnoresRest | locallibrary/locallibrary/catalog/models.py:85 | genres after the third do not change the summary |
| Models.IsOverdue | locallibrary/locallibrary/catalog/models.py:115-119 | overdue iff there is a due date and it lies strictly before today |
| Models.NotOverdueUntilDue | locallibrary/locallibrary/catalog/models.py:115-119 | a copy without a due date, or before or on its due date, is not overdue |
| Models.OverdueStaysOverdue | locallibrary/locallibrary/catalog/models.py:115-119 | an overdue copy stays overdue on every later day |
| Models.BookAbsoluteUrl | locallibrary/locallibrary/catalog/models.py:89-91 | the URL is "book/" followed by the key, and it resolves to the book-detail route with that key |
| Models.AuthorAbsoluteUrl | locallibrary/locallibrary/catalog/models.py:157-159 | the URL is "author/" followed by the key, and it resolves to the author-detail route with that key |
| Models.AbsoluteUrlsInjective | locallibrary/locallibrary/catalog/models.py:89-91 | distinct books, and distinct authors, have distinct URLs |
| Models.DueLeqTotal | locallibrary/locallibrary/catalog/models.py:136 | any two due dates are comparable, wherever missing dates go |
| Models.DueLeqTransitive | locallibrary/locallibrary/catalog/models.py:136 | the due-date order is transitive |
| Models.HeadSortsFirst | locallibrary/locallibrary/catalog/models.py:136 | in a sorted list the head sorts before every later copy |
| Models.ConsSorted | locallibrary/locallibrary/catalog/models.py:136 | a copy that sorts before every copy of a sorted list can head it |
| Models.HeadBeforeInserted | locallibrary/locallibrary/catalog/models.py:136 | the head of a sorted list sorts before its tail with a later copy added |
| Models.BeforeHead | locallibrary/locallibrary/catalog/models.py:136 | a copy that sorts before the head sorts before the whole list |
| Models.Insert | locallibrary/locallibrary/catalog/models.py:136 | inserting into a sorted list gives a sorted list holding the old copies plus the new one |
| Models.SortByDue | locallibrary/locallibrary/catalog/models.py:136 | the default ordering is a rearrangement of the copies in non-decreasing due-date order |
| Models.DatedCopiesAscend | locallibrary/locallibrary/catalog/models.py:136 | the dated copies come out in ascending date order, wherever undated copies go |
| Catalog.EmptyStoreValid | locallibrary/locallibrary/catalog/models.py:52-163 | the empty catalog satisfies every table's rules |
| Catalog.Distinct | locallibrary/locallibrary/catalog/models.py:64 | attaching genres keeps the same set of genres, without repeats, and leaves a repeat-free list unchanged |
| Catalog.NoDuplicatesTail | locallibrary/locallibrary/catalog/models.py:64 | a repeat-free list has a repeat-free tail that does not contain its head |
| Catalog.Without | locallibrary/locallibrary/catalog/models.py:64 | detaching a genre removes exactly it and keeps the list repeat-free |
| Catalog.BookRefsFrame | locallibrary/locallibrary/catalog/models.py:56-67 | the books' references stay valid while the referenced tables only gain rows |
| Catalog.InstanceRefsFrame | locallibrary/locallibrary/catalog/models.py:102-105 | the copies' references stay valid while books and users only gain rows |
| Catalog.FieldsFrame | locallibrary/locallibrary/catalog/models.py:16-150 | the column rules keep holding when tables lose rows or are unchanged |
| Saving.Fresh | locallibrary/locallibrary/catalog/models.py:52-163 | the new key is used by no table |
| Saving.AddCover | locallibrary/locallibrary/catalog/models.py:16-23 | a cover is added iff its image passes the size validator; only the covers table gains that row |
| Saving.AddGenre | locallibrary/locallibrary/catalog/models.py:30-35 | a genre is added iff its name is non-empty and fits 200 characters; an empty name is reported as blank; only the genres table gains that row |
| Saving.AddLanguage | locallibrary/locallibrary/catalog/models.py:42-45 | a language is added iff its name is non-empty and fits 200 characters; an empty name is reported as blank; only the languages table gains that row |
| Saving.AddUser | locallibrary/locallibrary/catalog/models.py:11-13 | a new account is registered under an unused key; nothing else changes |
| Saving.AddAuthor | locallibrary/locallibrary/catalog/models.py:144-153 | added iff both names are non-empty and fit 100 characters, and no author with a date of birth shares name and date; an empty first name and a clash are each reported as such |
| Saving.AddBook | locallibrary/locallibrary/catalog/models.py:52-81 | added iff title, summary, ISBN, preview and file are present and pass their rules, author and language are given and exist, the ISBN and `(title, author)` are unused, and the genres exist; when the earlier rules pass, a missing author, language or preview, a taken `(title, author)`, a taken ISBN and a missing genre are each reported as such; genres are stored without repeats |
| Saving.NewInstance | locallibrary/locallibrary/catalog/models.py:128-133 | a copy created without a status has status Maintenance and the given fields |
| Saving.AddInstance | locallibrary/locallibrary/catalog/models.py:98-133 | added iff the book is given and exists, imprint and photo are present and pass, the status is allowed, the borrower is null or exists, and the id is unused; a missing book is reported as blank; only the copies table changes |
| Saving.AddCoverPreservesValid | locallibrary/locallibrary/catalog/models.py:16-23 | adding a cover keeps the store invariant |
| Saving.AddGenrePreservesValid | locallibrary/locallibrary/catalog/models.py:30-35 | adding a genre keeps the store invariant |
| Saving.AddLanguagePreservesValid | locallibrary/locallibrary/catalog/models.py:42-45 | adding a language keeps the store invariant |
| Saving.AddUserPreservesValid | locallibrary/locallibrary/catalog/models.py:11-13 | registering an account keeps the store invariant |
| Saving.InsertAuthorUnique | locallibrary/locallibrary/catalog/models.py:153 | inserting a non-clashing author keeps author names unique |
| Saving.AddAuthorPreservesValid | locallibrary/locallibrary/catalog/models.py:144-153 | adding an author keeps the store invariant |
| Saving.InsertBookRefs | locallibrary/locallibrary/catalog/models.py:56-67 | inserting an accepted book keeps every book reference valid |
| Saving.InsertBookUnique | locallibrary/locallibrary/catalog/models.py:60-79 | inserting an accepted book keeps ISBNs and `(title, author)` unique |
| Saving.InsertBookValid | locallibrary/locallibrary/catalog/models.py:52-81 | inserting an accepted book keeps the store invariant |
| Saving.AddBookPreservesValid | locallibrary/locallibrary/catalog/models.py:52-81 | adding a book keeps the store invariant |
| Saving.AddInstancePreservesValid | locallibrary/locallibrary/catalog/models.py:98-133 | adding a copy keeps the store invariant |
| Deleting.Nulled | locallibrary/locallibrary/catalog/models.py:56 | a reference to the deleted row becomes null; any other reference is kept |
| Deleting.DeleteCover | locallibrary/locallibrary/catalog/models.py:16-23 | succeeds iff the cover exists; only that row goes |
| Deleting.DeleteGenre | locallibrary/locallibrary/catalog/models.py:64 | succeeds iff the genre exists; the other genres are unchanged, and every book keeps its other genres and fields |
| Deleting.DeleteAuthor | locallibrary/locallibrary/catalog/models.py:56 | succeeds iff the author exists; the other authors are unchanged, books that named it get a null author, and nothing else changes |
| Deleting.DeleteLanguage | locallibrary/locallibrary/catalog/models.py:67 | succeeds iff the language exists; the other languages are unchanged, books in it get a null language, and nothing else changes |
| Deleting.DeleteUser | locallibrary/locallibrary/catalog/models.py:105 | succeeds iff the account exists; copies it borrowed get a null borrower, and nothing else changes |
| Deleting.DeleteBook | locallibrary/locallibrary/catalog/models.py:102 | a missing book is DoesNotExist; a book with a copy is Restricted; otherwise only that book goes |
| Deleting.DeleteInstance | locallibrary/locallibrary/catalog/models.py:98-102 | succeeds iff the copy exists; only that copy goes |
| Deleting.DeleteCoverPreservesValid | locallibrary/locallibrary/catalog/models.py:16-23 | deleting a cover keeps the store invariant |
| Deleting.RelinkedBooksUnique | locallibrary/locallibrary/catalog/models.py:60-79 | nulling authors keeps book uniqueness |
| Deleting.DeleteGenreRefs | locallibrary/locallibrary/catalog/models.py:64 | after a genre is deleted no book refers to it |
| Deleting.DeleteGenrePreservesValid | locallibrary/locallibrary/catalog/models.py:64 | deleting a genre keeps the store invariant |
| Deleting.DeleteAuthorRefs | locallibrary/locallibrary/catalog/models.py:56 | after an author is deleted every book reference is valid |
| Deleting.DeleteAuthorPreservesValid | locallibrary/locallibrary/catalog/models.py:56 | deleting an author keeps the store invariant |
| Deleting.DeleteLanguageRefs | locallibrary/locallibrary/catalog/models.py:67 | after a language is deleted every book reference is valid |
| Deleting.DeleteLanguagePreservesValid | locallibrary/locallibrary/catalog/models.py:67 | deleting a language keeps the store invariant |
| Deleting.DeleteUserRefs | locallibrary/locallibrary/catalog/models.py:105 | after an account is deleted every copy reference is valid |
| Deleting.DeleteUserPreservesValid | locallibrary/locallibrary/catalog/models.py:105 | deleting an account keeps the store invariant |
| Deleting.DeleteBookRefs | locallibrary/locallibrary/catalog/models.py:102 | a book deleted without copies leaves every copy reference valid |
| Deleting.DeleteBookPreservesValid | locallibrary/locallibrary/catalog/models.py:102 | deleting a book keeps the store invariant |
| Deleting.DeleteInstancePreservesValid | locallibrary/locallibrary/catalog/models.py:98-102 | deleting a copy keeps the store invariant |
| Deleting.AddBookThenDelete | locallibrary/locallibrary/catalog/models.py:102 | deleting a book just added restores the store, except that the key counter has advanced |
| Deleting.AddAuthorThenDelete | locallibrary/locallibrary/catalog/models.py:56 | deleting an author just added restores the store, except that the key counter has advanced |
| Deleting.CopyRestrictsBookDelete | locallibrary/locallibrary/catalog/models.py:102 | once a copy of a book is added, deleting that book is Restricted |
| Deleting.DeleteAuthorKeepsBooks | locallibrary/locallibrary/catalog/models.py:56 | deleting an author loses no book, and no book names it afterwards |

## Left out

- File storage. An uploaded image is modelled by its size in bytes. Upload paths, storage back-ends and file contents are not modelled.
- `Book.bookFile` contents. The model records only whether a file is set, since the column is required and has no validator.
- The summary length. Its `max_length` on a text column only sizes the form widget and is not validated on save.
- `objects = None` on `Book` and `Author`. It is not modelled, because the ORM query layer is left out.
- Identifier generation. The copy's UUID (`uuid4`) is supplied by the caller. Integer keys come from a single counter shared by all tables.
- The clock. `date.today()` becomes the `today` parameter of `IsOverdue`. Dates are day numbers.
- Null placement. Where copies without a due date sort depends on the database, so it is the `nullsFirst` parameter.
- Models.DisplayGenre: the genres are taken in the order the book's list holds them. The program shows whatever three genres the database returns first, since `Genre` declares no ordering.
- Stability of the ordering. Copies with equal due dates may come out in any order.
- The rest of the application: views, templates, authentication and the `can_mark_returned` permission.
- Translatable text: verbose names, help texts and the validator's localised message. The message is replaced by an `Error` value.
- Urls.Resolve: `\d` is taken as the ASCII digits only, although Python also matches other Unicode decimal digits.
- Urls.Resolve: a trailing newline before the end is not accepted, although `$` in Python would accept one.
- Urls.Resolve: the prefix under which the application is included is not part of the path.
- Urls.Resolve: the views bound to the routes are not modelled.
- Saving.AddBook: genres are attached in the same step as the row is created. In the program, the many-to-many rows are written after the book is saved.
- Saving.AddBook: reports only the first broken rule. Django's validation collects every failing column into one error, then runs the uniqueness checks on the columns that passed.
- Saving.AddAuthor: reports only the first broken rule, where Django reports every failing column.
- Saving.AddInstance: reports only the first broken rule, where Django reports every failing column.
- Saving.AddInstance: the identifier is not checked to be a well-formed UUID; the caller supplies it as text.
- Concurrency. Two requests racing to insert the same unique value are not modelled.

=== FILE: catalog.dfy ===
/** The catalog store: the rows of every table, the rules a validated save
    enforces when a row is added, and what deleting a row does to the rows
    that point at it (set the reference to null, or refuse the delete). */
module Catalog {
  import opened Wrappers
  import opened Fields
  import opened Models

  /** Every table of the catalog, plus the counter that hands out integer keys. */
  datatype Store = Store(
    covers: map<Pk, Cover>,
    genres: map<Pk, Genre>,
    languages: map<Pk, Language>,
    authors: map<Pk, Author>,
    books: map<Pk, Book>,
    instances: map<Uuid, BookInstance>,
    users: set<Pk>,
    nextPk: Pk)

  const EmptyStore: Store := Store(map[], map[], map[], map[], map[], map[], {}, 0)

  /** The columns whose rules can reject a row. */
  datatype Column =
    | CoverImage | GenreName | LanguageName | FirstName | LastName
    | Title | BookAuthor | Summary | Isbn | BookLanguage | Preview | BookFile | BookGenre
    | InstanceBook | Imprint | Borrower | Photo | Status

  /** The uniqueness rules of the tables. */
  datatype Constraint = UniqueIsbn | UniqueTitleAuthor | UniqueAuthorName | UniqueInstanceId

  /** Why an operation was refused. */
  datatype Error =
    | Blank(column: Column)
    | ImageTooLarge(column: Column)
    | TooLong(column: Column)
    | InvalidChoice(column: Column)
    | NoSuchRow(column: Column)
    | NotUnique(constraint: Constraint)
    | DoesNotExist
    | Restricted

  // ---------------------------------------------------------------------
  // Row-level rules

  /** A nullable foreign key is null or names an existing row. */
  predicate RefOk<T>(ref: Option<Pk>, table: map<Pk, T>)
  {
    ref.None? || ref.value in table
  }

  predicate NoDuplicates(xs: seq<Pk>)
  {
    forall i, j :: 0 <= i < j < |xs| ==> xs[i] != xs[j]
  }

  predicate CoverOk(c: Cover)
  {
    ImageOk(c.image)
  }

  predicate GenreOk(g: Genre)
  {
    Filled(g.name) && Fits(g.name, GenreNameMaxLength)
  }

  predicate LanguageOk(l: Language)
  {
    Filled(l.name) && Fits(l.name, LanguageNameMaxLength)
  }

  predicate AuthorOk(a: Author)
  {
    && Filled(a.firstName) && Fits(a.firstName, PersonNameMaxLength)
    && Filled(a.lastName) && Fits(a.lastName, PersonNameMaxLength)
  }

  /** The rules on a book's own columns. Author and language are required
      when a book is saved but may later become null, so they are checked by
      the save alone. */
  predicate BookFieldsOk(b: Book)
  {
    && Filled(b.title) && Fits(b.title, TitleMaxLength)
    && Filled(b.summary)
    && Filled(b.isbn) && Fits(b.isbn, IsbnMaxLength)
    && b.preview.Some? && ImageOk(b.preview)
    && b.bookFile.Some?
  }

  /** The rules on a copy's own columns: the book, the imprint and the photo
      are required, the borrower, the due date and the status are not. */
  predicate InstanceFieldsOk(i: BookInstance)
  {
    && i.book.Some?
    && Filled(i.imprint) && Fits(i.imprint, ImprintMaxLength)
    && i.photo.Some? && ImageOk(i.photo)
    && StatusAllowed(i.status)
  }

  // ---------------------------------------------------------------------
  // Uniqueness rules. A composite rule is not checked when one of its
  // columns is null, so rows with a null column never collide.

  predicate IsbnTaken(books: map<Pk, Book>, isbn: string)
  {
    exists k :: k in books && books[k].isbn == isbn
  }

  predicate TitleAuthorTaken(books: map<Pk, Book>, title: string, author: Option<Pk>)
  {
    author.Some? && exists k :: k in books && books[k].title == title && books[k].author == author
  }

  predicate AuthorTaken(authors: map<Pk, Author>, a: Author)
  {
    a.dateOfBirth.Some? &&
    exists k :: k in authors && authors[k].firstName == a.firstName &&
      authors[k].lastName == a.lastName && authors[k].dateOfBirth == a.dateOfBirth
  }

  // ---------------------------------------------------------------------
  // The store invariant

  /** Every integer key in use is below the counter, so the counter is fresh. */
  predicate KeysBelow(s: Store)
  {
    && (forall k :: k in s.covers ==> k < s.nextPk)
    && (forall k :: k in s.genres ==> k < s.nextPk)
    && (forall k :: k in s.languages ==> k < s.nextPk)
    && (forall k :: k in s.authors ==> k < s.nextPk)
    && (forall k :: k in s.books ==> k < s.nextPk)
    && (forall k :: k in s.users ==> k < s.nextPk)
  }

  /** Every foreign key of a book names an existing row or is null, and no
      genre is attached twice. */
  predicate BookRefsOk(s: Store)
  {
    && (forall k :: k in s.books ==> RefOk(s.books[k].author, s.authors))
    && (forall k :: k in s.books ==> RefOk(s.books[k].language, s.languages))
    && (forall k, g :: k in s.books && g in s.books[k].genres ==> g in s.genres)
    && (forall k :: k in s.books ==> NoDuplicates(s.books[k].genres))
  }

  /** Every foreign key of a copy names an existing row or is null. */
  predicate InstanceRefsOk(s: Store)
  {
    && (forall u :: u in s.instances ==> RefOk(s.instances[u].book, s.books))
    && (forall u :: u in s.instances ==> s.instances[u].borrower.None? || s.instances[u].borrower.value in s.users)
  }

  /** No two books share an ISBN, nor a title together with a non-null author. */
  predicate BooksUnique(s: Store)
  {
    && (forall k1, k2 :: k1 in s.books && k2 in s.books && k1 != k2 ==> s.books[k1].isbn != s.books[k2].isbn)
    && (forall k1, k2 :: k1 in s.books && k2 in s.books && k1 != k2 && s.books[k1].author.Some? ==>
          s.books[k1].title != s.books[k2].title || s.books[k1].author != s.books[k2].author)
  }

  /** No two authors share first name, last name and a non-null date of birth. */
  predicate AuthorsUnique(s: Store)
  {
    forall k1, k2 :: k1 in s.authors && k2 in s.authors && k1 != k2 && s.authors[k1].dateOfBirth.Some? ==>
      s.authors[k1].firstName != s.authors[k2].firstName ||
      s.authors[k1].lastName != s.authors[k2].lastName ||
      s.authors[k1].dateOfBirth != s.authors[k2].dateOfBirth
  }

  /** Every row passes its column rules. */
  predicate FieldsOk(s: Store)
  {
    && (forall k :: k in s.covers ==> CoverOk(s.covers[k]))
    && (forall k :: k in s.genres ==> GenreOk(s.genres[k]))
    && (forall k :: k in s.languages ==> LanguageOk(s.languages[k]))
    && (forall k :: k in s.authors ==> AuthorOk(s.authors[k]))
    && (forall k :: k in s.books ==> BookFieldsOk(s.books[k]))
    && (forall u :: u in s.instances ==> InstanceFieldsOk(s.instances[u]))
  }

  /** The invariant every store reached through the operations keeps. */
  predicate Valid(s: Store)
  {
    KeysBelow(s) && BookRefsOk(s) && InstanceRefsOk(s) && BooksUnique(s) && AuthorsUnique(s) && FieldsOk(s)
  }

  lemma EmptyStoreValid()
    ensures Valid(EmptyStore)
  {
  }

  // ---------------------------------------------------------------------
  // Helpers on genre lists

  /** Attaching genres ignores repeats: the first occurrence of each is kept. */
  function Distinct(xs: seq<Pk>): (r: seq<Pk>)
    ensures forall x :: x in r <==> x in xs
    ensures NoDuplicates(r)
    ensures NoDuplicates(xs) ==> r == xs
  {
    if |xs| == 0 then []
    else
      var init := xs[..|xs| - 1];
      var x := xs[|xs| - 1];
      assert xs == init + [x];
      var d := Distinct(init);
      if x in d then d else d + [x]
  }

  /** A list without repeats has a tail without repeats, not containing its head. */
  lemma NoDuplicatesTail(xs: seq<Pk>)
    requires |xs| > 0
    ensures NoDuplicates(xs) ==> NoDuplicates(xs[1..]) && xs[0] !in xs[1..]
  {
    if NoDuplicates(xs) {
      forall k | 0 <= k < |xs| - 1
        ensures xs[1..][k] != xs[0]
      {
        assert xs[1..][k] == xs[k + 1];
      }
    }
  }

  /** Detaches one genre from a list, keeping the order of the others. */
  function Without(xs: seq<Pk>, g: Pk): (r: seq<Pk>)
    ensures forall x :: x in r <==> x in xs && x != g
    ensures NoDuplicates(xs) ==> NoDuplicates(r)
  {
    if |xs| == 0 then []
    else
      var rest := Without(xs[1..], g);
      assert forall x :: x in xs[1..] ==> x in xs;
      NoDuplicatesTail(xs);
      if xs[0] == g then rest else [xs[0]] + rest
  }

  // ---------------------------------------------------------------------
  // Frame facts: a part of the invariant survives when the tables it reads
  // are unchanged or only gain rows.

  lemma BookRefsFrame(s: Store, t: Store)
    requires BookRefsOk(s) && t.books == s.books
    requires s.authors.Keys <= t.authors.Keys && s.languages.Keys <= t.languages.Keys
    requires s.genres.Keys <= t.genres.Keys
    ensures BookRefsOk(t)
  {
  }

  lemma InstanceRefsFrame(s: Store, t: Store)
    requires InstanceRefsOk(s) && t.instances == s.instances
    requires s.books.Keys <= t.books.Keys && s.users <= t.users
    ensures InstanceRefsOk(t)
  {
  }

  /** Every row of `a` is a row of `b`. */
  predicate SubMap<K, V(==)>(a: map<K, V>, b: map<K, V>)
  {
    forall k :: k in a ==> k in b && a[k] == b[k]
  }

  lemma FieldsFrame(s: Store, t: Store)
    requires FieldsOk(s)
    requires t.covers == s.covers && t.instances == s.instances
    requires SubMap(t.genres, s.genres) && SubMap(t.languages, s.languages) && SubMap(t.authors, s.authors)
    requires forall k :: k in t.books ==> BookFieldsOk(t.books[k])
    ensures FieldsOk(t)
  {
  }
}

=== FILE: deleting.dfy ===
/** Deleting rows. Deleting an author, a language or a borrower sets the
    references to it to null; deleting a genre detaches it from every book;
    deleting a book that still has copies is refused. A missing row is
    reported as DoesNotExist, the lookup that precedes every delete. */
module Deleting {
  import opened Wrappers
  import opened Models
  import opened Catalog
  import opened Saving

  /** What a nullable reference becomes when the row `pk` is deleted. */
  function Nulled(ref: Option<Pk>, pk: Pk): (r: Option<Pk>)
    ensures r != Some(pk)
    ensures ref != Some(pk) ==> r == ref
    ensures ref == Some(pk) ==> r.None?
  {
    if ref == Some(pk) then None else ref
  }

  function DeleteCover(s: Store, pk: Pk): (r: Result<Store, Error>)
    ensures r.Success? <==> pk in s.covers
    ensures r.Failure? ==> r.error == DoesNotExist
    ensures r.Success? ==> r.value.covers.Keys == s.covers.Keys - {pk}
    ensures r.Success? ==> forall k :: k in r.value.covers ==> r.value.covers[k] == s.covers[k]
    ensures r.Success? ==> r.value.(covers := s.covers) == s
  {
    if pk !in s.covers then Failure(DoesNotExist)
    else Success(s.(covers := s.covers - {pk}))
  }

  /** Deleting a genre detaches it from every book; the books stay. */
  function DeleteGenre(s: Store, pk: Pk): (r: Result<Store, Error>)
    ensures r.Success? <==> pk in s.genres
    ensures r.Failure? ==> r.error == DoesNotExist
    ensures r.Success? ==> r.value.genres.Keys == s.genres.Keys - {pk}
    ensures r.Success? ==> forall k :: k in r.value.genres ==> r.value.genres[k] == s.genres[k]
    ensures r.Success? ==> r.value.books.Keys == s.books.Keys
    ensures r.Success? ==> forall k :: k in s.books ==>
              (forall g :: g in r.value.books[k].genres <==> g in s.books[k].genres && g != pk) &&
              r.value.books[k].(genres := s.books[k].genres) == s.books[k]
    ensures r.Success? ==> r.value.(genres := s.genres, books := s.books) == s
  {
    if pk !in s.genres then Failure(DoesNotExist)
    else
      var books := map k | k in s.books :: s.books[k].(genres := Without(s.books[k].genres, pk));
      Success(s.(genres := s.genres - {pk}, books := books))
  }

  /** Deleting an author keeps every book; the books that named the author
      get a null author. */
  function DeleteAuthor(s: Store, pk: Pk): (r: Result<Store, Error>)
    ensures r.Success? <==> pk in s.authors
    ensures r.Failure? ==> r.error == DoesNotExist
    ensures r.Success? ==> r.value.authors.Keys == s.authors.Keys - {pk}
    ensures r.Success? ==> forall k :: k in r.value.authors ==> r.value.authors[k] == s.authors[k]
    ensures r.Success? ==> r.value.books.Keys == s.books.Keys
    ensures r.Success? ==> forall k :: k in s.books ==>
              r.value.books[k].author == Nulled(s.books[k].author, pk) &&
              r.value.books[k].(author := s.books[k].author) == s.books[k]
    ensures r.Success? ==> r.value.(authors := s.authors, books := s.books) == s
  {
    if pk !in s.authors then Failure(DoesNotExist)
    else
      var books := map k | k in s.books :: s.books[k].(author := Nulled(s.books[k].author, pk));
      Success(s.(authors := s.authors - {pk}, books := books))
  }

  /** Deleting a language keeps every book; the books in that language get
      a null language. */
  function DeleteLanguage(s: Store, pk: Pk): (r: Result<Store, Error>)
    ensures r.Success? <==> pk in s.languages
    ensures r.Failure? ==> r.error == DoesNotExist
    ensures r.Success? ==> r.value.languages.Keys == s.languages.Keys - {pk}
    ensures r.Success? ==> forall k :: k in r.value.languages ==> r.value.languages[k] == s.languages[k]
    ensures r.Success? ==> r.value.books.Keys == s.books.Keys
    ensures r.Success? ==> forall k :: k in s.books ==>
              r.value.books[k].language == Nulled(s.books[k].language, pk) &&
              r.value.books[k].(language := s.books[k].language) == s.books[k]
    ensures r.Success? ==> r.value.(languages := s.languages, books := s.books) == s
  {
    if pk !in s.languages then Failure(DoesNotExist)
    else
      var books := map k | k in s.books :: s.books[k].(language := Nulled(s.books[k].language, pk));
      Success(s.(languages := s.languages - {pk}, books := books))
  }

  /** Deleting a borrower keeps every copy; the copies they held get a null
      borrower. */
  function DeleteUser(s: Store, pk: Pk): (r: Result<Store, Error>)
    ensures r.Success? <==> pk in s.users
    ensures r.Failure? ==> r.error == DoesNotExist
    ensures r.Success? ==> r.value.users == s.users - {pk}
    ensures r.Success? ==> r.value.instances.Keys == s.instances.Keys
    ensures r.Success? ==> forall u :: u in s.instances ==>
              r.value.instances[u].borrower == Nulled(s.instances[u].borrower, pk) &&
              r.value.instances[u].(borrower := s.instances[u].borrower) == s.instances[u]
    ensures r.Success? ==> r.value.(users := s.users, instances := s.instances) == s
  {
    if pk !in s.users then Failure(DoesNotExist)
    else
      var instances := map u | u in s.instances :: s.instances[u].(borrower := Nulled(s.instances[u].borrower, pk));
      Success(s.(users := s.users - {pk}, instances := instances))
  }

  /** Some copy still points at the book. */
  predicate HasCopies(s: Store, pk: Pk)
  {
    exists u :: u in s.instances && s.instances[u].book == Some(pk)
  }

  /** Deleting a book is refused while a copy points at it; otherwise only
      that book goes. */
  function DeleteBook(s: Store, pk: Pk): (r: Result<Store, Error>)
    ensures r.Success? <==> pk in s.books && !HasCopies(s, pk)
    ensures pk !in s.books ==> r == Failure(DoesNotExist)
    ensures pk in s.books && HasCopies(s, pk) ==> r == Failure(Restricted)
    ensures r.Success? ==> r.value.books.Keys == s.books.Keys - {pk}
    ensures r.Success? ==> forall k :: k in r.value.books ==> r.value.books[k] == s.books[k]
    ensures r.Success? ==> r.value.(books := s.books) == s
  {
    if pk !in s.books then Failure(DoesNotExist)
    else if HasCopies(s, pk) then Failure(Restricted)
    else Success(s.(books := s.books - {pk}))
  }

  function DeleteInstance(s: Store, id: Uuid): (r: Result<Store, Error>)
    ensures r.Success? <==> id in s.instances
    ensures r.Failure? ==> r.error == DoesNotExist
    ensures r.Success? ==> r.value.instances.Keys == s.instances.Keys - {id}
    ensures r.Success? ==> forall u :: u in r.value.instances ==> r.value.instances[u] == s.instances[u]
    ensures r.Success? ==> r.value.(instances := s.instances) == s
  {
    if id !in s.instances then Failure(DoesNotExist)
    else Success(s.(instances := s.instances - {id}))
  }

  // ---------------------------------------------------------------------
  // Every delete keeps the store invariant.

  lemma DeleteCoverPreservesValid(s: Store, pk: Pk)
    requires Valid(s) && DeleteCover(s, pk).Success?
    ensures Valid(DeleteCover(s, pk).value)
  {
    var t := DeleteCover(s, pk).value;
    assert t == s.(covers := s.covers - {pk});
    BookRefsFrame(s, t);
    InstanceRefsFrame(s, t);
  }

  /** Books whose rows keep every column but one reference keep their uniqueness. */
  lemma RelinkedBooksUnique(s: Store, t: Store)
    requires BooksUnique(s) && t.books.Keys == s.books.Keys
    requires forall k :: k in s.books ==> t.books[k].isbn == s.books[k].isbn && t.books[k].title == s.books[k].title
    requires forall k :: k in s.books && t.books[k].author.Some? ==> t.books[k].author == s.books[k].author
    ensures BooksUnique(t)
  {
    forall k1, k2 | k1 in t.books && k2 in t.books && k1 != k2 && t.books[k1].author.Some?
      ensures t.books[k1].title != t.books[k2].title || t.books[k1].author != t.books[k2].author
    {
      if t.books[k1].author == t.books[k2].author {
        assert t.books[k2].author == s.books[k2].author;
      }
    }
  }

  lemma DeleteGenreRefs(s: Store, pk: Pk)
    requires BookRefsOk(s) && DeleteGenre(s, pk).Success?
    ensures BookRefsOk(DeleteGenre(s, pk).value)
  {
    var t := DeleteGenre(s, pk).value;
    forall k | k in t.books
      ensures RefOk(t.books[k].author, t.authors) && RefOk(t.books[k].language, t.languages)
      ensures NoDuplicates(t.books[k].genres)
    {
      assert t.books[k].genres == Without(s.books[k].genres, pk);
    }
    forall k, g | k in t.books && g in t.books[k].genres
      ensures g in t.genres
    {
      assert g in s.books[k].genres && g != pk;
    }
  }

  lemma DeleteGenrePreservesValid(s: Store, pk: Pk)
    requires Valid(s) && DeleteGenre(s, pk).Success?
    ensures Valid(DeleteGenre(s, pk).value)
  {
    var t := DeleteGenre(s, pk).value;
    DeleteGenreRefs(s, pk);
    InstanceRefsFrame(s, t);
    RelinkedBooksUnique(s, t);
    forall k | k in t.books
      ensures BookFieldsOk(t.books[k])
    {
      assert BookFieldsOk(s.books[k]);
    }
    FieldsFrame(s, t);
    assert KeysBelow(t);
  }

  lemma DeleteAuthorRefs(s: Store, pk: Pk)
    requires BookRefsOk(s) && DeleteAuthor(s, pk).Success?
    ensures BookRefsOk(DeleteAuthor(s, pk).value)
  {
    var t := DeleteAuthor(s, pk).value;
    forall k | k in t.books
      ensures RefOk(t.books[k].author, t.authors)
    {
      assert RefOk(s.books[k].author, s.authors);
    }
    forall k, g | k in t.books && g in t.books[k].genres
      ensures g in t.genres
    {
      assert t.books[k].genres == s.books[k].genres;
    }
  }

  lemma DeleteAuthorPreservesValid(s: Store, pk: Pk)
    requires Valid(s) && DeleteAuthor(s, pk).Success?
    ensures Valid(DeleteAuthor(s, pk).value)
  {
    var t := DeleteAuthor(s, pk).value;
    DeleteAuthorRefs(s, pk);
    InstanceRefsFrame(s, t);
    RelinkedBooksUnique(s, t);
    forall k | k in t.books
      ensures BookFieldsOk(t.books[k])
    {
      assert BookFieldsOk(s.books[k]);
    }
    FieldsFrame(s, t);
    assert KeysBelow(t);
  }

  lemma DeleteLanguageRefs(s: Store, pk: Pk)
    requires BookRefsOk(s) && DeleteLanguage(s, pk).Success?
    ensures BookRefsOk(DeleteLanguage(s, pk).value)
  {
    var t := DeleteLanguage(s, pk).value;
    forall k | k in t.books
      ensures RefOk(t.books[k].language, t.languages) && RefOk(t.books[k].author, t.authors)
      ensures NoDuplicates(t.books[k].genres)
    {
      assert RefOk(s.books[k].language, s.languages);
      assert t.books[k].author == s.books[k].author && t.books[k].genres == s.books[k].genres;
    }
    forall k, g | k in t.books && g in t.books[k].genres
      ensures g in t.genres
    {
      assert t.books[k].genres == s.books[k].genres;
    }
  }

  lemma DeleteLanguagePreservesValid(s: Store, pk: Pk)
    requires Valid(s) && DeleteLanguage(s, pk).Success?
    ensures Valid(DeleteLanguage(s, pk).value)
  {
    var t := DeleteLanguage(s, pk).value;
    DeleteLanguageRefs(s, pk);
    InstanceRefsFrame(s, t);
    RelinkedBooksUnique(s, t);
    forall k | k in t.books
      ensures BookFieldsOk(t.books[k])
    {
      assert BookFieldsOk(s.books[k]);
    }
    FieldsFrame(s, t);
    assert KeysBelow(t);
  }

  lemma DeleteUserRefs(s: Store, pk: Pk)
    requires InstanceRefsOk(s) && DeleteUser(s, pk).Success?
    ensures InstanceRefsOk(DeleteUser(s, pk).value)
  {
    var t := DeleteUser(s, pk).value;
    forall u | u in t.instances
      ensures RefOk(t.instances[u].book, t.books)
      ensures t.instances[u].borrower.None? || t.instances[u].borrower.value in t.users
    {
      assert t.instances[u].book == s.instances[u].book;
    }
  }

  lemma DeleteUserPreservesValid(s: Store, pk: Pk)
    requires Valid(s) && DeleteUser(s, pk).Success?
    ensures Valid(DeleteUser(s, pk).value)
  {
    var t := DeleteUser(s, pk).value;
    DeleteUserRefs(s, pk);
    BookRefsFrame(s, t);
    assert KeysBelow(t);
    forall u | u in t.instances
      ensures InstanceFieldsOk(t.instances[u])
    {
      assert InstanceFieldsOk(s.instances[u]);
    }
  }

  lemma DeleteBookRefs(s: Store, pk: Pk)
    requires InstanceRefsOk(s) && DeleteBook(s, pk).Success?
    ensures InstanceRefsOk(DeleteBook(s, pk).value)
  {
    var t := DeleteBook(s, pk).value;
    forall u | u in t.instances
      ensures RefOk(t.instances[u].book, t.books)
    {
      assert s.instances[u].book != Some(pk);
    }
  }

  lemma DeleteBookPreservesValid(s: Store, pk: Pk)
    requires Valid(s) && DeleteBook(s, pk).Success?
    ensures Valid(DeleteBook(s, pk).value)
  {
    var t := DeleteBook(s, pk).value;
    assert t == s.(books := s.books - {pk});
    DeleteBookRefs(s, pk);
    assert KeysBelow(t);
    assert BookRefsOk(t);
    assert BooksUnique(t);
    FieldsFrame(s, t);
  }

  lemma DeleteInstancePreservesValid(s: Store, id: Uuid)
    requires Valid(s) && DeleteInstance(s, id).Success?
    ensures Valid(DeleteInstance(s, id).value)
  {
    var t := DeleteInstance(s, id).value;
    assert t == s.(instances := s.instances - {id});
    BookRefsFrame(s, t);
  }

  // ---------------------------------------------------------------------
  // How adds and deletes combine.

  /** Adding a book and deleting it again restores the store; only the key
      counter has moved on. */
  lemma AddBookThenDelete(s: Store, b: Book)
    requires Valid(s) && AddBook(s, b).Success?
    ensures DeleteBook(AddBook(s, b).value.store, AddBook(s, b).value.pk) == Success(s.(nextPk := s.nextPk + 1))
  {
    var c := AddBook(s, b).value;
    assert !HasCopies(c.store, c.pk);
    assert c.store.books - {c.pk} == s.books;
  }

  /** Adding an author and deleting it again restores the store: no book can
      name the new author, so nothing is set to null. */
  lemma AddAuthorThenDelete(s: Store, a: Author)
    requires Valid(s) && AddAuthor(s, a).Success?
    ensures DeleteAuthor(AddAuthor(s, a).value.store, AddAuthor(s, a).value.pk) == Success(s.(nextPk := s.nextPk + 1))
  {
    var c := AddAuthor(s, a).value;
    var t := DeleteAuthor(c.store, c.pk).value;
    assert c.store.authors - {c.pk} == s.authors;
    assert t.books == s.books;
  }

  /** A book that has just been given a copy cannot be deleted. */
  lemma CopyRestrictsBookDelete(s: Store, id: Uuid, inst: BookInstance)
    requires AddInstance(s, id, inst).Success?
    ensures DeleteBook(AddInstance(s, id, inst).value, inst.book.value) == Failure(Restricted)
  {
    var t := AddInstance(s, id, inst).value;
    assert t.instances[id].book == inst.book;
  }

  /** After an author is deleted no book names it, and no book was lost. */
  lemma DeleteAuthorKeepsBooks(s: Store, pk: Pk)
    requires DeleteAuthor(s, pk).Success?
    ensures |DeleteAuthor(s, pk).value.books| == |s.books|
    ensures forall k :: k in DeleteAuthor(s, pk).value.books ==> DeleteAuthor(s, pk).value.books[k].author != Some(pk)
  {
    assert DeleteAuthor(s, pk).value.books.Keys == s.books.Keys;
  }
}

=== FILE: digits.dfy ===
/** Decimal numerals: the `\d+` capture of the URL patterns and the
    `str(self.id)` argument that reversing a detail route formats. */
module Digits {

  /** An ASCII decimal digit. */
  predicate IsDigit(c: char)
  {
    '0' <= c <= '9'
  }

  /** Every character is a digit (the empty string included). */
  predicate AllDigits(s: string)
  {
    forall i :: 0 <= i < |s| ==> IsDigit(s[i])
  }

  /** What `\d+` matches: one or more digits. */
  predicate IsNumeral(s: string)
  {
    |s| > 0 && AllDigits(s)
  }

  function DigitValue(c: char): (v: nat)
    requires IsDigit(c)
    ensures v < 10
  {
    c as int - '0' as int
  }

  function DigitChar(d: nat): (c: char)
    requires d < 10
    ensures IsDigit(c) && DigitValue(c) == d
  {
    ('0' as int + d) as char
  }

  /** The value of a digit string, read most significant digit first. */
  function ParseNat(s: string): nat
    requires AllDigits(s)
  {
    if |s| == 0 then 0 else ParseNat(s[..|s| - 1]) * 10 + DigitValue(s[|s| - 1])
  }

  /** The shortest decimal numeral of `n`, as Python's `str` prints it. */
  function ShowNat(n: nat): (s: string)
    ensures IsNumeral(s)
    ensures s[0] == '0' ==> n == 0
  {
    if n < 10 then [DigitChar(n)] else ShowNat(n / 10) + [DigitChar(n % 10)]
  }

  /** Printing then reading a number gives the number back. */
  lemma {:induction false} ParseShowNat(n: nat)
    ensures ParseNat(ShowNat(n)) == n
  {
    var s := ShowNat(n);
    if n < 10 {
      assert s[..0] == "";
    } else {
      var prefix := ShowNat(n / 10);
      assert s == prefix + [DigitChar(n % 10)];
      assert s[..|s| - 1] == prefix;
      ParseShowNat(n / 10);
    }
  }

  /** Distinct numbers print differently. */
  lemma ShowNatInjective(a: nat, b: nat)
    requires ShowNat(a) == ShowNat(b)
    ensures a == b
  {
    ParseShowNat(a);
    ParseShowNat(b);
  }
}

=== FILE: fields.dfy ===
/** Field-level rules of the catalog models: the image-size validator, the
    character limits of the text columns and the loan-status choices. */
module Fields {
  import opened Wrappers

  /** Largest accepted image upload, in bytes (2 MB). */
  const ImageSizeLimit: nat := 2 * 1024 * 1024

  /** The verdict of the image-size validator on one upload. */
  datatype Verdict = Accepted | TooLarge

  /** The size validator attached to every image field. Cover, Book and
      BookInstance each declare a textually identical copy; this single
      definition stands for all three. An uploaded file is modelled by its
      size in bytes. */
  function ValidateImage(size: nat): (v: Verdict)
    ensures v == Accepted <==> size <= 2097152
  {
    if size > ImageSizeLimit then TooLarge else Accepted
  }

  /** An optional image column passes validation when it is empty or its
      file passes the size validator. */
  predicate ImageOk(image: Option<nat>)
  {
    image.None? || ValidateImage(image.value) == Accepted
  }

  /** The boundary of the validator: exactly 2 MB passes, one byte more fails. */
  lemma ValidateImageBoundary()
    ensures ValidateImage(2097152) == Accepted
    ensures ValidateImage(2097153) == TooLarge
  {
  }

  /** Acceptance is downward closed: a smaller file than an accepted one is accepted. */
  lemma ValidateImageMonotone(small: nat, large: nat)
    requires small <= large
    requires ValidateImage(large) == Accepted
    ensures ValidateImage(small) == Accepted
  {
  }

  // Character limits of the CharField columns (max_length).
  const TitleMaxLength: nat := 200
  const IsbnMaxLength: nat := 13
  const ImprintMaxLength: nat := 200
  const PersonNameMaxLength: nat := 100
  const GenreNameMaxLength: nat := 200
  const LanguageNameMaxLength: nat := 200

  /** A column declared without `blank=True` must not hold the empty string. */
  predicate Filled(s: string)
  {
    s != ""
  }

  /** The max_length validator of a CharField. */
  predicate Fits(s: string, maxLength: nat)
  {
    |s| <= maxLength
  }

  /** The four loan states of a book copy. */
  datatype LoanStatus = Maintenance | OnLoan | Available | Reserved

  /** The one-character code stored in the status column. */
  function Code(st: LoanStatus): char
  {
    match st
    case Maintenance => 'd'
    case OnLoan => 'o'
    case Available => 'a'
    case Reserved => 'r'
  }

  /** Reads a stored status column back as a loan state; None for a value
      outside the choices (including the blank value). */
  function FromCode(code: string): (r: Option<LoanStatus>)
    ensures r.Some? ==> code == [Code(r.value)]
  {
    if code == "d" then Some(Maintenance)
    else if code == "o" then Some(OnLoan)
    else if code == "a" then Some(Available)
    else if code == "r" then Some(Reserved)
    else None
  }

  /** The column default given to a copy whose status is not supplied. */
  const DefaultStatus: string := "d"

  /** What full validation lets into the status column: one of the four
      codes, or the blank value, which the column declares allowed. */
  predicate StatusAllowed(code: string)
  {
    code == "" || FromCode(code).Some?
  }

  /** Every loan state survives a trip through its stored code. */
  lemma CodeRoundTrip(st: LoanStatus)
    ensures FromCode([Code(st)]) == Some(st)
  {
  }

  /** The codes are pairwise distinct, so the code determines the state. */
  lemma CodeInjective(a: LoanStatus, b: LoanStatus)
    requires Code(a) == Code(b)
    ensures a == b
  {
  }

  /** The default is the Maintenance code. */
  lemma DefaultIsMaintenance()
    ensures FromCode(DefaultStatus) == Some(Maintenance)
    ensures StatusAllowed(DefaultStatus)
  {
  }

  /** The status column admits exactly five values: the four codes and blank. */
  lemma StatusDomain(code: string)
    ensures StatusAllowed(code) <==> code in {"", "d", "o", "a", "r"}
  {
  }
}

=== FILE: models.dfy ===
/** The catalog's entities and the pure helpers they declare: the string
    forms shown by the admin site, the genre summary, the overdue test, the
    canonical URLs and the default ordering of book copies. */
module Models {
  import opened Wrappers
  import opened Fields
  import Urls
  import Digits

  /** An integer primary key (Cover, Genre, Language, Author, Book, User). */
  type Pk = nat

  /** The primary key of a book copy: the text of a UUID chosen by the caller. */
  type Uuid = string

  /** A calendar day, as a day number: later days are larger. */
  type Date = int

  /** A standalone image; the file is modelled by its size in bytes. */
  datatype Cover = Cover(image: Option<nat>)

  datatype Genre = Genre(name: string)

  datatype Language = Language(name: string)

  datatype Author = Author(
    firstName: string,
    lastName: string,
    dateOfBirth: Option<Date>,
    dateOfDeath: Option<Date>)

  /** A catalog entry. `author` and `language` are nullable foreign keys;
      `genres` lists the attached genres in the order the relation yields
      them; `preview` is the cover image's size in bytes, if one is set;
      `bookFile` is the name of the downloadable file, if one is set. */
  datatype Book = Book(
    title: string,
    author: Option<Pk>,
    summary: string,
    isbn: string,
    genres: seq<Pk>,
    language: Option<Pk>,
    preview: Option<nat>,
    bookFile: Option<string>)

  /** A loanable copy of a book. `status` holds the stored status code. */
  datatype BookInstance = BookInstance(
    book: Option<Pk>,
    imprint: string,
    dueBack: Option<Date>,
    borrower: Option<Pk>,
    photo: Option<nat>,
    status: string)

  // String forms used by the admin site. A genre, a language and a book
  // show their name or title unchanged, so those fields are read directly.

  /** "last, first": the last name, a comma and a space, then the first name. */
  function AuthorStr(a: Author): (r: string)
    ensures |r| == |a.lastName| + 2 + |a.firstName|
    ensures r[..|a.lastName|] == a.lastName
    ensures r[|a.lastName|..|a.lastName| + 2] == ", "
    ensures r[|a.lastName| + 2..] == a.firstName
  {
    a.lastName + ", " + a.firstName
  }

  /** In the string form of an author whose last name holds no comma, the
      first comma is the one right after the last name. */
  lemma AuthorStrFirstComma(a: Author)
    requires ',' !in a.lastName
    ensures AuthorStr(a)[|a.lastName|] == ','
    ensures forall i :: 0 <= i < |a.lastName| ==> AuthorStr(a)[i] != ','
  {
    var r := AuthorStr(a);
    forall i | 0 <= i < |a.lastName|
      ensures r[i] != ','
    {
      assert r[i] == a.lastName[i];
    }
  }

  /** The string form of an author gives the names back when the last name
      holds no comma. */
  lemma AuthorStrInjective(a: Author, b: Author)
    requires ',' !in a.lastName && ',' !in b.lastName
    requires AuthorStr(a) == AuthorStr(b)
    ensures a.lastName == b.lastName && a.firstName == b.firstName
  {
    AuthorStrFirstComma(a);
    AuthorStrFirstComma(b);
    assert |a.lastName| == |b.lastName|;
  }

  /** "id (title)" for a copy, where `book` is the row its foreign key points
      to. A copy whose book is null has no string form: reading the title of
      the missing book fails. */
  function InstanceStr(id: Uuid, book: Option<Book>): (r: Option<string>)
    ensures r.None? <==> book.None?
    ensures r.Some? ==> |r.value| == |id| + |book.value.title| + 3
    ensures r.Some? ==> r.value[..|id|] == id && r.value[|id|..|id| + 2] == " ("
    ensures r.Some? ==> r.value[|id| + 2..|r.value| - 1] == book.value.title && r.value[|r.value| - 1] == ')'
  {
    match book
    case None => None
    case Some(b) => Some(id + " (" + b.title + ")")
  }

  /** Identifiers of one length (the text of a UUID always has 36
      characters) make the string form of a copy give back its identifier
      and the title of its book. */
  lemma InstanceStrInjective(id1: Uuid, b1: Book, id2: Uuid, b2: Book)
    requires |id1| == |id2|
    requires InstanceStr(id1, Some(b1)) == InstanceStr(id2, Some(b2))
    ensures id1 == id2 && b1.title == b2.title
  {
  }

  /** Joins strings with a separator between consecutive elements. */
  function Join(sep: string, xs: seq<string>): string
  {
    if |xs| == 0 then "" else if |xs| == 1 then xs[0] else xs[0] + sep + Join(sep, xs[1..])
  }

  /** The length of a join: every element plus one separator between each pair. */
  lemma {:induction false} JoinLength(sep: string, xs: seq<string>)
    requires |xs| > 0
    ensures |Join(sep, xs)| == SumLengths(xs) + (|xs| - 1) * |sep|
  {
    if |xs| > 1 {
      JoinLength(sep, xs[1..]);
    }
  }

  /** Joins of two and three elements, spelled out. */
  lemma JoinShort(sep: string, xs: seq<string>)
    ensures |xs| == 2 ==> Join(sep, xs) == xs[0] + sep + xs[1]
    ensures |xs| == 3 ==> Join(sep, xs) == xs[0] + sep + xs[1] + sep + xs[2]
  {
    if |xs| == 2 {
      assert Join(sep, xs[1..]) == xs[1];
    } else if |xs| == 3 {
      assert xs[1..][1..] == [xs[2]];
      assert Join(sep, xs[1..]) == xs[1] + sep + xs[2];
    }
  }

  function SumLengths(xs: seq<string>): nat
  {
    if |xs| == 0 then 0 else |xs[0]| + SumLengths(xs[1..])
  }

  /** The genres a summary shows: at most the first three. */
  function Shown(names: seq<string>): (r: seq<string>)
    ensures |r| <= 3 && r <= names
    ensures |names| <= 3 ==> r == names
    ensures |names| > 3 ==> r == names[..3]
  {
    if |names| <= 3 then names else names[..3]
  }

  /** The genre summary of a book: the names of at most its first three
      genres, separated by ", ". */
  function DisplayGenre(names: seq<string>): (r: string)
    ensures |names| == 0 ==> r == ""
    ensures |names| == 1 ==> r == names[0]
    ensures |names| == 2 ==> r == names[0] + ", " + names[1]
    ensures |names| >= 3 ==> r == names[0] + ", " + names[1] + ", " + names[2]
  {
    JoinShort(", ", Shown(names));
    Join(", ", Shown(names))
  }

  /** The summary's length: the shown names plus two characters between
      each consecutive pair. */
  lemma DisplayGenreLength(names: seq<string>)
    requires |names| > 0
    ensures |DisplayGenre(names)| == SumLengths(Shown(names)) + 2 * (|Shown(names)| - 1)
  {
    JoinLength(", ", Shown(names));
  }

  /** Genres past the third never reach the summary. */
  lemma DisplayGenreIgnoresRest(names: seq<string>, more: seq<string>)
    requires |names| >= 3
    ensures DisplayGenre(names + more) == DisplayGenre(names)
  {
  }

  /** A copy is overdue on `today` exactly when it has a due date and that
      date lies strictly before `today`. */
  function IsOverdue(inst: BookInstance, today: Date): (r: bool)
    ensures r <==> exists d :: inst.dueBack == Some(d) && d < today
  {
    inst.dueBack.Some? && today > inst.dueBack.value
  }

  /** A copy is never overdue on or before its due date, nor without one. */
  lemma NotOverdueUntilDue(inst: BookInstance, today: Date)
    requires inst.dueBack.None? || today <= inst.dueBack.value
    ensures !IsOverdue(inst, today)
  {
  }

  /** Once overdue, a copy stays overdue on every later day. */
  lemma OverdueStaysOverdue(inst: BookInstance, today: Date, later: Date)
    requires IsOverdue(inst, today) && today <= later
    ensures IsOverdue(inst, later)
  {
  }

  /** The canonical URL of a book, relative to the catalog's prefix. */
  function BookAbsoluteUrl(pk: Pk): (r: string)
    ensures r == "book/" + Digits.ShowNat(pk)
    ensures Urls.Resolve(r) == Some(Urls.Match("book-detail", Some(pk)))
  {
    Urls.ReverseDetail("book-detail", pk);
    Urls.Reverse("book-detail", Some(pk)).value
  }

  /** The canonical URL of an author, relative to the catalog's prefix. */
  function AuthorAbsoluteUrl(pk: Pk): (r: string)
    ensures r == "author/" + Digits.ShowNat(pk)
    ensures Urls.Resolve(r) == Some(Urls.Match("author-detail", Some(pk)))
  {
    Urls.ReverseDetail("author-detail", pk);
    Urls.Reverse("author-detail", Some(pk)).value
  }

  /** Distinct books and distinct authors have distinct canonical URLs. */
  lemma AbsoluteUrlsInjective(a: Pk, b: Pk)
    requires a != b
    ensures BookAbsoluteUrl(a) != BookAbsoluteUrl(b)
    ensures AuthorAbsoluteUrl(a) != AuthorAbsoluteUrl(b)
  {
    var ra := Urls.Resolve(BookAbsoluteUrl(a));
    var rb := Urls.Resolve(BookAbsoluteUrl(b));
    assert ra != rb;
    var sa := Urls.Resolve(AuthorAbsoluteUrl(a));
    var sb := Urls.Resolve(AuthorAbsoluteUrl(b));
    assert sa != sb;
  }

  /** The order on due dates used by the default ordering of copies. Dated
      copies compare by date; where copies without a date go is up to the
      database, so the placement of the missing date is a parameter. */
  predicate DueLeq(a: Option<Date>, b: Option<Date>, nullsFirst: bool)
  {
    match (a, b)
    case (None, None) => true
    case (None, Some(_)) => nullsFirst
    case (Some(_), None) => !nullsFirst
    case (Some(x), Some(y)) => x <= y
  }

  lemma DueLeqTotal(a: Option<Date>, b: Option<Date>, nullsFirst: bool)
    ensures DueLeq(a, b, nullsFirst) || DueLeq(b, a, nullsFirst)
  {
  }

  lemma DueLeqTransitive(a: Option<Date>, b: Option<Date>, c: Option<Date>, nullsFirst: bool)
    requires DueLeq(a, b, nullsFirst) && DueLeq(b, c, nullsFirst)
    ensures DueLeq(a, c, nullsFirst)
  {
  }

  /** Copies listed in non-decreasing order of due date. */
  predicate SortedByDue(xs: seq<BookInstance>, nullsFirst: bool)
  {
    forall i, j :: 0 <= i < j < |xs| ==> DueLeq(xs[i].dueBack, xs[j].dueBack, nullsFirst)
  }

  /** In a sorted list the head sorts before every later element. */
  lemma HeadSortsFirst(xs: seq<BookInstance>, y: BookInstance, nullsFirst: bool)
    requires SortedByDue(xs, nullsFirst) && |xs| > 0 && y in multiset(xs[1..])
    ensures DueLeq(xs[0].dueBack, y.dueBack, nullsFirst)
  {
    var k :| 0 <= k < |xs[1..]| && xs[1..][k] == y;
    assert xs[k + 1] == y;
  }

  /** A copy that sorts before everything in a sorted list can head it. */
  lemma ConsSorted(h: BookInstance, rest: seq<BookInstance>, nullsFirst: bool)
    requires SortedByDue(rest, nullsFirst)
    requires forall y :: y in multiset(rest) ==> DueLeq(h.dueBack, y.dueBack, nullsFirst)
    ensures SortedByDue([h] + rest, nullsFirst)
  {
    forall j | 0 <= j < |rest|
      ensures DueLeq(h.dueBack, rest[j].dueBack, nullsFirst)
    {
      assert rest[j] in multiset(rest);
    }
  }

  /** The head of a sorted list sorts before the tail with a later copy added. */
  lemma HeadBeforeInserted(x: BookInstance, xs: seq<BookInstance>, rest: seq<BookInstance>, nullsFirst: bool)
    requires SortedByDue(xs, nullsFirst) && |xs| > 0
    requires !DueLeq(x.dueBack, xs[0].dueBack, nullsFirst)
    requires multiset(rest) == multiset(xs[1..]) + multiset{x}
    ensures forall y :: y in multiset(rest) ==> DueLeq(xs[0].dueBack, y.dueBack, nullsFirst)
  {
    DueLeqTotal(x.dueBack, xs[0].dueBack, nullsFirst);
    forall y | y in multiset(rest)
      ensures DueLeq(xs[0].dueBack, y.dueBack, nullsFirst)
    {
      if y != x {
        HeadSortsFirst(xs, y, nullsFirst);
      }
    }
  }

  /** A copy that sorts before the head of a sorted list sorts before all of it. */
  lemma BeforeHead(x: BookInstance, xs: seq<BookInstance>, nullsFirst: bool)
    requires SortedByDue(xs, nullsFirst) && |xs| > 0
    requires DueLeq(x.dueBack, xs[0].dueBack, nullsFirst)
    ensures forall y :: y in multiset(xs) ==> DueLeq(x.dueBack, y.dueBack, nullsFirst)
  {
    forall y | y in multiset(xs)
      ensures DueLeq(x.dueBack, y.dueBack, nullsFirst)
    {
      var k :| 0 <= k < |xs| && xs[k] == y;
      DueLeqTransitive(x.dueBack, xs[0].dueBack, xs[k].dueBack, nullsFirst);
    }
  }

  /** Places a copy into a sorted list after every copy that sorts before it. */
  function Insert(x: BookInstance, xs: seq<BookInstance>, nullsFirst: bool): (r: seq<BookInstance>)
    requires SortedByDue(xs, nullsFirst)
    ensures multiset(r) == multiset(xs) + multiset{x}
    ensures SortedByDue(r, nullsFirst)
  {
    if |xs| == 0 then [x]
    else if DueLeq(x.dueBack, xs[0].dueBack, nullsFirst) then
      BeforeHead(x, xs, nullsFirst);
      ConsSorted(x, xs, nullsFirst);
      [x] + xs
    else
      assert xs == [xs[0]] + xs[1..];
      var rest := Insert(x, xs[1..], nullsFirst);
      HeadBeforeInserted(x, xs, rest, nullsFirst);
      ConsSorted(xs[0], rest, nullsFirst);
      [xs[0]] + rest
  }

  /** The default ordering of copies: by due date, ascending. The result is
      a rearrangement of the input. */
  function SortByDue(xs: seq<BookInstance>, nullsFirst: bool): (r: seq<BookInstance>)
    ensures multiset(r) == multiset(xs)
    ensures SortedByDue(r, nullsFirst)
  {
    if |xs| == 0 then []
    else
      assert xs == xs[..|xs| - 1] + [xs[|xs| - 1]];
      Insert(xs[|xs| - 1], SortByDue(xs[..|xs| - 1], nullsFirst), nullsFirst)
  }

  /** Whatever the database does with missing dates, the dated copies come
      out in non-decreasing order of their dates. */
  lemma DatedCopiesAscend(xs: seq<BookInstance>, nullsFirst: bool, i: nat, j: nat)
    requires i < j < |SortByDue(xs, nullsFirst)|
    requires SortByDue(xs, nullsFirst)[i].dueBack.Some? && SortByDue(xs, nullsFirst)[j].dueBack.Some?
    ensures SortByDue(xs, nullsFirst)[i].dueBack.value <= SortByDue(xs, nullsFirst)[j].dueBack.value
  {
  }
}

=== FILE: saving.dfy ===
/** Adding rows. Each operation stands for a validated save: the column
    rules run first, in column order (requiredness, length limits, the
    image-size validator, choices and the existence of referenced rows),
    then the uniqueness rules. The first rule broken is reported and no store is produced, so
    the caller's store is left as it was. */
module Saving {
  import opened Wrappers
  import opened Fields
  import opened Models
  import opened Catalog

  /** A successful add: the new store and the key given to the new row. */
  datatype Created = Created(store: Store, pk: Pk)

  /** `after` is `before` plus one row under a new key; no other row changes. */
  predicate AddsRow<T(==)>(before: map<Pk, T>, after: map<Pk, T>, pk: Pk, row: T)
  {
    && pk !in before
    && after.Keys == before.Keys + {pk}
    && after[pk] == row
    && forall k :: k in before ==> after[k] == before[k]
  }

  /** Hands out the counter as the new key. */
  function Fresh(s: Store): (r: Pk)
    ensures KeysBelow(s) ==> r !in s.covers && r !in s.genres && r !in s.languages
    ensures KeysBelow(s) ==> r !in s.authors && r !in s.books && r !in s.users
  {
    s.nextPk
  }

  function AddCover(s: Store, image: Option<nat>): (r: Result<Created, Error>)
    ensures r.Success? <==> ImageOk(image)
    ensures r.Failure? ==> r.error == ImageTooLarge(CoverImage)
    ensures r.Success? && KeysBelow(s) ==> AddsRow(s.covers, r.value.store.covers, r.value.pk, Cover(image))
    ensures r.Success? ==> r.value.store.(covers := s.covers, nextPk := s.nextPk) == s
  {
    if !ImageOk(image) then Failure(ImageTooLarge(CoverImage))
    else
      var pk := Fresh(s);
      Success(Created(s.(covers := s.covers[pk := Cover(image)], nextPk := pk + 1), pk))
  }

  function AddGenre(s: Store, name: string): (r: Result<Created, Error>)
    ensures r.Success? <==> GenreOk(Genre(name))
    ensures name == "" ==> r == Failure(Blank(GenreName))
    ensures name != "" && r.Failure? ==> r.error == TooLong(GenreName)
    ensures r.Success? && KeysBelow(s) ==> AddsRow(s.genres, r.value.store.genres, r.value.pk, Genre(name))
    ensures r.Success? ==> r.value.store.(genres := s.genres, nextPk := s.nextPk) == s
  {
    if !Filled(name) then Failure(Blank(GenreName))
    else if !Fits(name, GenreNameMaxLength) then Failure(TooLong(GenreName))
    else
      var pk := Fresh(s);
      Success(Created(s.(genres := s.genres[pk := Genre(name)], nextPk := pk + 1), pk))
  }

  function AddLanguage(s: Store, name: string): (r: Result<Created, Error>)
    ensures r.Success? <==> LanguageOk(Language(name))
    ensures name == "" ==> r == Failure(Blank(LanguageName))
    ensures name != "" && r.Failure? ==> r.error == TooLong(LanguageName)
    ensures r.Success? && KeysBelow(s) ==> AddsRow(s.languages, r.value.store.languages, r.value.pk, Language(name))
    ensures r.Success? ==> r.value.store.(languages := s.languages, nextPk := s.nextPk) == s
  {
    if !Filled(name) then Failure(Blank(LanguageName))
    else if !Fits(name, LanguageNameMaxLength) then Failure(TooLong(LanguageName))
    else
      var pk := Fresh(s);
      Success(Created(s.(languages := s.languages[pk := Language(name)], nextPk := pk + 1), pk))
  }

  /** Registers a borrower account. */
  function AddUser(s: Store): (r: Created)
    ensures KeysBelow(s) ==> r.pk !in s.users
    ensures r.store.users == s.users + {r.pk}
    ensures r.store.(users := s.users, nextPk := s.nextPk) == s
  {
    var pk := Fresh(s);
    Created(s.(users := s.users + {pk}, nextPk := pk + 1), pk)
  }

  /** Adds an author. Both names are required. Two authors may share first
      and last name only when their dates of birth differ or one of them has
      none. */
  function AddAuthor(s: Store, a: Author): (r: Result<Created, Error>)
    ensures r.Success? <==> AuthorOk(a) && !AuthorTaken(s.authors, a)
    ensures a.firstName == "" ==> r == Failure(Blank(FirstName))
    ensures r.Failure? && r.error == Blank(LastName) ==> a.lastName == ""
    ensures r.Failure? && r.error == NotUnique(UniqueAuthorName) ==> AuthorTaken(s.authors, a)
    ensures AuthorOk(a) && AuthorTaken(s.authors, a) ==> r == Failure(NotUnique(UniqueAuthorName))
    ensures r.Success? && KeysBelow(s) ==> AddsRow(s.authors, r.value.store.authors, r.value.pk, a)
    ensures r.Success? ==> r.value.store.(authors := s.authors, nextPk := s.nextPk) == s
  {
    if !Filled(a.firstName) then Failure(Blank(FirstName))
    else if !Fits(a.firstName, PersonNameMaxLength) then Failure(TooLong(FirstName))
    else if !Filled(a.lastName) then Failure(Blank(LastName))
    else if !Fits(a.lastName, PersonNameMaxLength) then Failure(TooLong(LastName))
    else if AuthorTaken(s.authors, a) then Failure(NotUnique(UniqueAuthorName))
    else
      var pk := Fresh(s);
      Success(Created(s.(authors := s.authors[pk := a], nextPk := pk + 1), pk))
  }

  /** The column rules of a new book, its required foreign keys included. */
  predicate BookColumnsOk(s: Store, b: Book)
  {
    && BookFieldsOk(b)
    && b.author.Some? && b.author.value in s.authors
    && b.language.Some? && b.language.value in s.languages
  }

  /** Every rule a new book must pass against the store. */
  predicate BookAccepted(s: Store, b: Book)
  {
    && BookColumnsOk(s, b)
    && !IsbnTaken(s.books, b.isbn)
    && !TitleAuthorTaken(s.books, b.title, b.author)
    && forall g :: g in b.genres ==> g in s.genres
  }

  /** Adds a book and attaches its genres (a repeated genre is attached once).
      Title, author, summary, ISBN, language, preview image and book file are
      all required. After the column rules, the `(title, author)` rule is
      checked before the ISBN rule, the order in which Django lists a model's
      uniqueness checks; the genres are checked last, since the program
      attaches them only once the book is saved. */
  function AddBook(s: Store, b: Book): (r: Result<Created, Error>)
    ensures r.Success? <==> BookAccepted(s, b)
    ensures r.Failure? && r.error == Blank(BookAuthor) ==> b.author.None?
    ensures r.Failure? && r.error == Blank(BookLanguage) ==> b.language.None?
    ensures r.Failure? && r.error == Blank(Preview) ==> b.preview.None?
    ensures r.Failure? && r.error == NotUnique(UniqueIsbn) ==> IsbnTaken(s.books, b.isbn)
    ensures r.Failure? && r.error == NotUnique(UniqueTitleAuthor) ==> TitleAuthorTaken(s.books, b.title, b.author)
    ensures r.Failure? && r.error == TooLong(Isbn) ==> |b.isbn| > IsbnMaxLength
    ensures r.Failure? && r.error == ImageTooLarge(Preview) ==> b.preview.Some? && b.preview.value > ImageSizeLimit
    ensures Filled(b.title) && Fits(b.title, TitleMaxLength) && b.author.None? ==> r == Failure(Blank(BookAuthor))
    ensures (Filled(b.title) && Fits(b.title, TitleMaxLength) &&
             b.author.Some? && b.author.value in s.authors &&
             Filled(b.summary) && Filled(b.isbn) && Fits(b.isbn, IsbnMaxLength) &&
             b.language.None?) ==> r == Failure(Blank(BookLanguage))
    ensures (Filled(b.title) && Fits(b.title, TitleMaxLength) &&
             b.author.Some? && b.author.value in s.authors &&
             Filled(b.summary) && Filled(b.isbn) && Fits(b.isbn, IsbnMaxLength) &&
             b.language.Some? && b.language.value in s.languages &&
             b.preview.None?) ==> r == Failure(Blank(Preview))
    ensures BookColumnsOk(s, b) && TitleAuthorTaken(s.books, b.title, b.author) ==>
              r == Failure(NotUnique(UniqueTitleAuthor))
    ensures BookColumnsOk(s, b) && !TitleAuthorTaken(s.books, b.title, b.author) && IsbnTaken(s.books, b.isbn) ==>
              r == Failure(NotUnique(UniqueIsbn))
    ensures (BookColumnsOk(s, b) && !TitleAuthorTaken(s.books, b.title, b.author) && !IsbnTaken(s.books, b.isbn) &&
             exists g :: g in b.genres && g !in s.genres) ==> r == Failure(NoSuchRow(BookGenre))
    ensures r.Success? && KeysBelow(s) ==>
              AddsRow(s.books, r.value.store.books, r.value.pk, b.(genres := Distinct(b.genres)))
    ensures r.Success? ==> r.value.store.(books := s.books, nextPk := s.nextPk) == s
  {
    if !Filled(b.title) then Failure(Blank(Title))
    else if !Fits(b.title, TitleMaxLength) then Failure(TooLong(Title))
    else if b.author.None? then Failure(Blank(BookAuthor))
    else if b.author.value !in s.authors then Failure(NoSuchRow(BookAuthor))
    else if !Filled(b.summary) then Failure(Blank(Summary))
    else if !Filled(b.isbn) then Failure(Blank(Isbn))
    else if !Fits(b.isbn, IsbnMaxLength) then Failure(TooLong(Isbn))
    else if b.language.None? then Failure(Blank(BookLanguage))
    else if b.language.value !in s.languages then Failure(NoSuchRow(BookLanguage))
    else if b.preview.None? then Failure(Blank(Preview))
    else if !ImageOk(b.preview) then Failure(ImageTooLarge(Preview))
    else if b.bookFile.None? then Failure(Blank(BookFile))
    else if TitleAuthorTaken(s.books, b.title, b.author) then Failure(NotUnique(UniqueTitleAuthor))
    else if IsbnTaken(s.books, b.isbn) then Failure(NotUnique(UniqueIsbn))
    else if exists g :: g in b.genres && g !in s.genres then Failure(NoSuchRow(BookGenre))
    else
      var pk := Fresh(s);
      Success(Created(s.(books := s.books[pk := b.(genres := Distinct(b.genres))], nextPk := pk + 1), pk))
  }

  /** A copy as created without a status: it gets the column default. */
  function NewInstance(book: Option<Pk>, imprint: string, dueBack: Option<Date>,
                       borrower: Option<Pk>, photo: Option<nat>): (r: BookInstance)
    ensures FromCode(r.status) == Some(Maintenance)
    ensures r.book == book && r.imprint == imprint && r.dueBack == dueBack
    ensures r.borrower == borrower && r.photo == photo
  {
    BookInstance(book, imprint, dueBack, borrower, photo, DefaultStatus)
  }

  /** Every rule a new copy must pass against the store. */
  predicate InstanceAccepted(s: Store, id: Uuid, inst: BookInstance)
  {
    && InstanceFieldsOk(inst)
    && RefOk(inst.book, s.books)
    && (inst.borrower.None? || inst.borrower.value in s.users)
    && id !in s.instances
  }

  /** Adds a copy of a book under the given identifier. The book, the
      imprint and the photo are required. */
  function AddInstance(s: Store, id: Uuid, inst: BookInstance): (r: Result<Store, Error>)
    ensures r.Success? <==> InstanceAccepted(s, id, inst)
    ensures inst.book.None? ==> r == Failure(Blank(InstanceBook))
    ensures r.Failure? && r.error == Blank(Photo) ==> inst.photo.None?
    ensures r.Failure? && r.error == InvalidChoice(Status) ==> !StatusAllowed(inst.status)
    ensures r.Failure? && r.error == NoSuchRow(InstanceBook) ==> inst.book.Some? && inst.book.value !in s.books
    ensures r.Failure? && r.error == NotUnique(UniqueInstanceId) ==> id in s.instances
    ensures r.Success? ==> id !in s.instances && r.value.instances == s.instances[id := inst]
    ensures r.Success? ==> r.value.(instances := s.instances) == s
  {
    if inst.book.None? then Failure(Blank(InstanceBook))
    else if inst.book.value !in s.books then Failure(NoSuchRow(InstanceBook))
    else if !Filled(inst.imprint) then Failure(Blank(Imprint))
    else if !Fits(inst.imprint, ImprintMaxLength) then Failure(TooLong(Imprint))
    else if inst.borrower.Some? && inst.borrower.value !in s.users then Failure(NoSuchRow(Borrower))
    else if inst.photo.None? then Failure(Blank(Photo))
    else if !ImageOk(inst.photo) then Failure(ImageTooLarge(Photo))
    else if !StatusAllowed(inst.status) then Failure(InvalidChoice(Status))
    else if id in s.instances then Failure(NotUnique(UniqueInstanceId))
    else Success(s.(instances := s.instances[id := inst]))
  }

  // ---------------------------------------------------------------------
  // Every add keeps the store invariant.

  lemma AddCoverPreservesValid(s: Store, image: Option<nat>)
    requires Valid(s) && AddCover(s, image).Success?
    ensures Valid(AddCover(s, image).value.store)
  {
    var t := AddCover(s, image).value.store;
    assert t == s.(covers := s.covers[s.nextPk := Cover(image)], nextPk := s.nextPk + 1);
    BookRefsFrame(s, t);
    InstanceRefsFrame(s, t);
  }

  lemma AddGenrePreservesValid(s: Store, name: string)
    requires Valid(s) && AddGenre(s, name).Success?
    ensures Valid(AddGenre(s, name).value.store)
  {
    var t := AddGenre(s, name).value.store;
    assert t == s.(genres := s.genres[s.nextPk := Genre(name)], nextPk := s.nextPk + 1);
    BookRefsFrame(s, t);
    InstanceRefsFrame(s, t);
  }

  lemma AddLanguagePreservesValid(s: Store, name: string)
    requires Valid(s) && AddLanguage(s, name).Success?
    ensures Valid(AddLanguage(s, name).value.store)
  {
    var t := AddLanguage(s, name).value.store;
    assert t == s.(languages := s.languages[s.nextPk := Language(name)], nextPk := s.nextPk + 1);
    BookRefsFrame(s, t);
    InstanceRefsFrame(s, t);
  }

  lemma AddUserPreservesValid(s: Store)
    requires Valid(s)
    ensures Valid(AddUser(s).store)
  {
    var t := AddUser(s).store;
    BookRefsFrame(s, t);
    InstanceRefsFrame(s, t);
  }

  /** Inserting an author that passes the rules under the fresh key keeps
      the authors unique. */
  lemma InsertAuthorUnique(s: Store, a: Author)
    requires AuthorsUnique(s) && KeysBelow(s) && !AuthorTaken(s.authors, a)
    ensures AuthorsUnique(s.(authors := s.authors[s.nextPk := a], nextPk := s.nextPk + 1))
  {
    var t := s.(authors := s.authors[s.nextPk := a], nextPk := s.nextPk + 1);
    forall k1, k2 | k1 in t.authors && k2 in t.authors && k1 != k2 && t.authors[k1].dateOfBirth.Some?
      ensures t.authors[k1].firstName != t.authors[k2].firstName ||
              t.authors[k1].lastName != t.authors[k2].lastName ||
              t.authors[k1].dateOfBirth != t.authors[k2].dateOfBirth
    {
      if k1 == s.nextPk {
        assert k2 in s.authors;
      } else if k2 == s.nextPk {
        assert k1 in s.authors;
      }
    }
  }

  lemma AddAuthorPreservesValid(s: Store, a: Author)
    requires Valid(s) && AddAuthor(s, a).Success?
    ensures Valid(AddAuthor(s, a).value.store)
  {
    var t := AddAuthor(s, a).value.store;
    assert t == s.(authors := s.authors[s.nextPk := a], nextPk := s.nextPk + 1);
    BookRefsFrame(s, t);
    InstanceRefsFrame(s, t);
    InsertAuthorUnique(s, a);
  }

  /** Inserting a book row that passes the rules keeps the book references valid. */
  lemma InsertBookRefs(s: Store, nb: Book)
    requires BookRefsOk(s) && BookAccepted(s, nb) && NoDuplicates(nb.genres)
    ensures BookRefsOk(s.(books := s.books[s.nextPk := nb], nextPk := s.nextPk + 1))
  {
    var t := s.(books := s.books[s.nextPk := nb], nextPk := s.nextPk + 1);
    forall k, g | k in t.books && g in t.books[k].genres
      ensures g in t.genres
    {
      if k != s.nextPk {
        assert t.books[k] == s.books[k];
      }
    }
  }

  /** Inserting a book row that passes the rules keeps the books unique. */
  lemma InsertBookUnique(s: Store, nb: Book)
    requires BooksUnique(s) && KeysBelow(s) && BookAccepted(s, nb)
    ensures BooksUnique(s.(books := s.books[s.nextPk := nb], nextPk := s.nextPk + 1))
  {
    var t := s.(books := s.books[s.nextPk := nb], nextPk := s.nextPk + 1);
    var pk := s.nextPk;
    forall k1, k2 | k1 in t.books && k2 in t.books && k1 != k2
      ensures t.books[k1].isbn != t.books[k2].isbn
    {
      if k1 == pk {
        assert k2 in s.books && s.books[k2].isbn != nb.isbn;
      } else if k2 == pk {
        assert k1 in s.books && s.books[k1].isbn != nb.isbn;
      }
    }
    forall k1, k2 | k1 in t.books && k2 in t.books && k1 != k2 && t.books[k1].author.Some?
      ensures t.books[k1].title != t.books[k2].title || t.books[k1].author != t.books[k2].author
    {
      if k1 == pk {
        assert k2 in s.books;
      } else if k2 == pk {
        assert k1 in s.books;
      }
    }
  }

  /** Inserting a book row that passes the rules under the fresh key keeps
      the store valid. */
  lemma InsertBookValid(s: Store, nb: Book)
    requires Valid(s) && BookAccepted(s, nb) && NoDuplicates(nb.genres)
    ensures Valid(s.(books := s.books[s.nextPk := nb], nextPk := s.nextPk + 1))
  {
    var t := s.(books := s.books[s.nextPk := nb], nextPk := s.nextPk + 1);
    InsertBookRefs(s, nb);
    InsertBookUnique(s, nb);
    InstanceRefsFrame(s, t);
    assert KeysBelow(t);
    forall k | k in t.books
      ensures BookFieldsOk(t.books[k])
    {
      if k != s.nextPk {
        assert t.books[k] == s.books[k];
      }
    }
    FieldsFrame(s, t);
  }

  lemma AddBookPreservesValid(s: Store, b: Book)
    requires Valid(s) && AddBook(s, b).Success?
    ensures Valid(AddBook(s, b).value.store)
  {
    var nb := b.(genres := Distinct(b.genres));
    var t := AddBook(s, b).value.store;
    assert t == s.(books := s.books[s.nextPk := nb], nextPk := s.nextPk + 1);
    InsertBookValid(s, nb);
  }

  lemma AddInstancePreservesValid(s: Store, id: Uuid, inst: BookInstance)
    requires Valid(s) && AddInstance(s, id, inst).Success?
    ensures Valid(AddInstance(s, id, inst).value)
  {
    var t := AddInstance(s, id, inst).value;
    assert t == s.(instances := s.instances[id := inst]);
    BookRefsFrame(s, t);
    forall u | u in t.instances
      ensures RefOk(t.instances[u].book, t.books) && InstanceFieldsOk(t.instances[u])
      ensures t.instances[u].borrower.None? || t.instances[u].borrower.value in t.users
    {
      if u != id {
        assert t.instances[u] == s.instances[u];
      }
    }
    assert InstanceRefsOk(t);
    assert KeysBelow(t);
  }
}

=== FILE: urls.dfy ===
/** The catalog application's URL table: paths are taken relative to the
    prefix under which the application is included, matched against the
    entries in order, and the first entry that matches names the view. */
module Urls {
  import opened Wrappers
  import opened Digits

  /** The two shapes of route the table uses. `Literal(t)` matches exactly
      the path `t`: both `path('')` and an anchored regex without groups
      such as `^books/$` behave this way. `Numbered(p)` is the anchored regex
      `^p(?P<pk>\d+)$`: the prefix followed by one or more digits and
      nothing else, the digits being captured as the primary key. */
  datatype Pattern = Literal(text: string) | Numbered(prefix: string)

  /** One row of the table: a pattern and the route name it registers. */
  datatype Entry = Entry(pattern: Pattern, name: string)

  /** A successful resolution: the route name and the captured key, if any. */
  datatype Match = Match(name: string, pk: Option<nat>)

  /** The table, in declaration order. The empty path is registered twice
      under the name "index", once as a plain route and once as `^$`. */
  const UrlPatterns: seq<Entry> := [
    Entry(Literal(""), "index"),
    Entry(Literal(""), "index"),
    Entry(Literal("books/"), "books"),
    Entry(Numbered("book/"), "book-detail"),
    Entry(Literal("author/"), "authors"),
    Entry(Numbered("author/"), "author-detail"),
    Entry(Literal("mybooks/"), "my-borrowed")
  ]

  /** `path` is the prefix followed by a non-empty run of digits. */
  predicate NumberedMatches(prefix: string, path: string)
  {
    |prefix| < |path| && path[..|prefix|] == prefix && AllDigits(path[|prefix|..])
  }

  /** Matches one pattern against a path: None when it does not match,
      otherwise the captured key (None for a pattern without a group). */
  function MatchPattern(p: Pattern, path: string): (r: Option<Option<nat>>)
    ensures p.Literal? ==> (r.Some? <==> path == p.text) && (r.Some? ==> r.value.None?)
    ensures p.Numbered? ==> (r.Some? <==> NumberedMatches(p.prefix, path))
    ensures p.Numbered? && r.Some? ==>
              IsNumeral(path[|p.prefix|..]) && r.value == Some(ParseNat(path[|p.prefix|..]))
  {
    match p
    case Literal(t) => if path == t then Some(None) else None
    case Numbered(prefix) =>
      if NumberedMatches(prefix, path) then Some(Some(ParseNat(path[|prefix|..]))) else None
  }

  /** Entry `i` matches `path` with result `m`, and no earlier entry matches. */
  predicate FirstMatchAt(table: seq<Entry>, path: string, i: int, m: Match)
  {
    && 0 <= i < |table|
    && MatchPattern(table[i].pattern, path) == Some(m.pk)
    && table[i].name == m.name
    && forall j :: 0 <= j < i ==> MatchPattern(table[j].pattern, path).None?
  }

  /** First-match resolution over a table. */
  function ResolveIn(table: seq<Entry>, path: string): (r: Option<Match>)
    ensures r.None? <==> forall i :: 0 <= i < |table| ==> MatchPattern(table[i].pattern, path).None?
    ensures r.Some? ==> exists i :: FirstMatchAt(table, path, i, r.value)
  {
    if |table| == 0 then None
    else
      match MatchPattern(table[0].pattern, path)
      case Some(pk) =>
        assert FirstMatchAt(table, path, 0, Match(table[0].name, pk));
        Some(Match(table[0].name, pk))
      case None =>
        var rest := ResolveIn(table[1..], path);
        if rest.Some? then
          var k :| FirstMatchAt(table[1..], path, k, rest.value);
          assert forall j :: 0 <= j < k + 1 ==> MatchPattern(table[j].pattern, path).None? by {
            forall j | 0 <= j < k + 1
              ensures MatchPattern(table[j].pattern, path).None?
            {
              if j > 0 {
                assert table[j] == table[1..][j - 1];
              }
            }
          }
          assert FirstMatchAt(table, path, k + 1, rest.value);
          rest
        else
          assert forall i :: 0 <= i < |table| ==> MatchPattern(table[i].pattern, path).None? by {
            forall i | 0 <= i < |table|
              ensures MatchPattern(table[i].pattern, path).None?
            {
              if i > 0 {
                assert table[i] == table[1..][i - 1];
              }
            }
          }
          None
  }

  /** When entry `i` is the first entry that matches, resolution yields it. */
  lemma FirstMatchWins(table: seq<Entry>, path: string, i: nat)
    requires i < |table| && MatchPattern(table[i].pattern, path).Some?
    requires forall j :: 0 <= j < i ==> MatchPattern(table[j].pattern, path).None?
    ensures ResolveIn(table, path) == Some(Match(table[i].name, MatchPattern(table[i].pattern, path).value))
  {
    var r := ResolveIn(table, path);
    var k :| FirstMatchAt(table, path, k, r.value);
  }

  /** A path that starts with `book/` is none of the literal routes. */
  lemma BookPrefixIsNotLiteral(path: string)
    requires |path| >= 5 && path[..5] == "book/"
    ensures path !in {"", "books/", "author/", "mybooks/"}
    ensures !NumberedMatches("author/", path)
  {
    assert "books/"[..5] == "books";
    assert "author/"[..5] == "autho";
    assert "mybooks/"[..5] == "myboo";
    if |path| > 7 {
      assert path[..7][..5] == "book/";
    }
  }

  /** A path that starts with `author/` is none of the other routes. */
  lemma AuthorPrefixIsNotOther(path: string)
    requires |path| >= 7 && path[..7] == "author/"
    ensures path !in {"", "books/", "mybooks/"}
    ensures !NumberedMatches("book/", path)
  {
    assert path[..5] == path[..7][..5] == "author/"[..5] == "autho";
    assert "books/"[..5] == "books";
    assert "mybooks/"[..7] == "mybooks";
  }

  lemma ResolveIndex(path: string)
    requires path == ""
    ensures ResolveIn(UrlPatterns, path) == Some(Match("index", None))
  {
    FirstMatchWins(UrlPatterns, path, 0);
  }

  lemma ResolveBooks(path: string)
    requires path == "books/"
    ensures ResolveIn(UrlPatterns, path) == Some(Match("books", None))
  {
    FirstMatchWins(UrlPatterns, path, 2);
  }

  lemma ResolveBookDetail(path: string)
    requires NumberedMatches("book/", path)
    ensures ResolveIn(UrlPatterns, path) == Some(Match("book-detail", Some(ParseNat(path[5..]))))
  {
    BookPrefixIsNotLiteral(path);
    FirstMatchWins(UrlPatterns, path, 3);
  }

  lemma ResolveAuthors(path: string)
    requires path == "author/"
    ensures ResolveIn(UrlPatterns, path) == Some(Match("authors", None))
  {
    assert !NumberedMatches("book/", path) by { assert path[..5] == "autho"; }
    FirstMatchWins(UrlPatterns, path, 4);
  }

  lemma ResolveAuthorDetail(path: string)
    requires NumberedMatches("author/", path)
    ensures ResolveIn(UrlPatterns, path) == Some(Match("author-detail", Some(ParseNat(path[7..]))))
  {
    AuthorPrefixIsNotOther(path);
    FirstMatchWins(UrlPatterns, path, 5);
  }

  lemma ResolveMyBorrowed(path: string)
    requires path == "mybooks/"
    ensures ResolveIn(UrlPatterns, path) == Some(Match("my-borrowed", None))
  {
    assert !NumberedMatches("book/", path) by { assert path[..5] == "myboo"; }
    assert !NumberedMatches("author/", path) by { assert path[..7] == "mybooks"; }
    FirstMatchWins(UrlPatterns, path, 6);
  }

  lemma ResolveNothing(path: string)
    requires path !in {"", "books/", "author/", "mybooks/"}
    requires !NumberedMatches("book/", path) && !NumberedMatches("author/", path)
    ensures ResolveIn(UrlPatterns, path) == None
  {
    var t := UrlPatterns;
    assert t[0].pattern == Literal("") && t[1].pattern == Literal("") && t[2].pattern == Literal("books/");
    assert t[3].pattern == Numbered("book/") && t[4].pattern == Literal("author/");
    assert t[5].pattern == Numbered("author/") && t[6].pattern == Literal("mybooks/");
    forall i | 0 <= i < |t|
      ensures MatchPattern(t[i].pattern, path).None?
    {
    }
  }

  /** The outcome of resolving each kind of path against the catalog's table. */
  lemma ResolveCatalogTable(path: string)
    ensures path == "" ==> ResolveIn(UrlPatterns, path) == Some(Match("index", None))
    ensures path == "books/" ==> ResolveIn(UrlPatterns, path) == Some(Match("books", None))
    ensures NumberedMatches("book/", path) ==>
              ResolveIn(UrlPatterns, path) == Some(Match("book-detail", Some(ParseNat(path[5..]))))
    ensures path == "author/" ==> ResolveIn(UrlPatterns, path) == Some(Match("authors", None))
    ensures NumberedMatches("author/", path) ==>
              ResolveIn(UrlPatterns, path) == Some(Match("author-detail", Some(ParseNat(path[7..]))))
    ensures path == "mybooks/" ==> ResolveIn(UrlPatterns, path) == Some(Match("my-borrowed", None))
    ensures path !in {"", "books/", "author/", "mybooks/"} &&
            !NumberedMatches("book/", path) && !NumberedMatches("author/", path) ==>
              ResolveIn(UrlPatterns, path) == None
  {
    if path == "" {
      ResolveIndex(path);
    } else if path == "books/" {
      ResolveBooks(path);
    } else if NumberedMatches("book/", path) {
      BookPrefixIsNotLiteral(path);
      ResolveBookDetail(path);
    } else if path == "author/" {
      ResolveAuthors(path);
    } else if NumberedMatches("author/", path) {
      AuthorPrefixIsNotOther(path);
      ResolveAuthorDetail(path);
    } else if path == "mybooks/" {
      assert !NumberedMatches("author/", path) by { assert path[..7] == "mybooks"; }
      ResolveMyBorrowed(path);
    } else {
      ResolveNothing(path);
    }
  }

  /** Resolves a path against the catalog's table. Exactly the six kinds of
      path below resolve; the list routes need their trailing slash, and a
      detail route needs at least one digit after its prefix and nothing
      after the digits. */
  function Resolve(path: string): (r: Option<Match>)
    ensures r == Some(Match("index", None)) <==> path == ""
    ensures r == Some(Match("books", None)) <==> path == "books/"
    ensures r == Some(Match("authors", None)) <==> path == "author/"
    ensures r == Some(Match("my-borrowed", None)) <==> path == "mybooks/"
    ensures (r.Some? && r.value.name == "book-detail") <==> NumberedMatches("book/", path)
    ensures (r.Some? && r.value.name == "author-detail") <==> NumberedMatches("author/", path)
    ensures r.Some? && r.value.name == "book-detail" ==>
              IsNumeral(path[5..]) && r.value.pk == Some(ParseNat(path[5..]))
    ensures r.Some? && r.value.name == "author-detail" ==>
              IsNumeral(path[7..]) && r.value.pk == Some(ParseNat(path[7..]))
    ensures r.Some? ==> r.value.name in {"index", "books", "book-detail", "authors", "author-detail", "my-borrowed"}
    ensures r.None? <==> path !in {"", "books/", "author/", "mybooks/"} &&
                         !NumberedMatches("book/", path) && !NumberedMatches("author/", path)
  {
    ResolveCatalogTable(path);
    ResolveIn(UrlPatterns, path)
  }

  /** Whichever entry matches a path, resolution reports that entry's name
      and key: a match anywhere in the table agrees with the first match. */
  lemma EntryMatchResolves(path: string, i: nat)
    requires i < |UrlPatterns| && MatchPattern(UrlPatterns[i].pattern, path).Some?
    ensures Resolve(path) == Some(Match(UrlPatterns[i].name, MatchPattern(UrlPatterns[i].pattern, path).value))
  {
    ResolveCatalogTable(path);
    if i == 3 {
      BookPrefixIsNotLiteral(path);
    } else if i == 5 {
      AuthorPrefixIsNotOther(path);
    }
  }

  /** First-match resolution is unambiguous: two entries that match the same
      path (only the two empty-path entries ever do) register the same name
      and capture the same key. */
  lemma MatchesAgree(path: string, i: nat, j: nat)
    requires i < |UrlPatterns| && MatchPattern(UrlPatterns[i].pattern, path).Some?
    requires j < |UrlPatterns| && MatchPattern(UrlPatterns[j].pattern, path).Some?
    ensures UrlPatterns[i].name == UrlPatterns[j].name
    ensures MatchPattern(UrlPatterns[i].pattern, path) == MatchPattern(UrlPatterns[j].pattern, path)
    ensures i != j ==> path == "" && UrlPatterns[i].name == "index"
  {
    EntryMatchResolves(path, i);
    EntryMatchResolves(path, j);
    if i != j {
      NamesOnlyRepeatForIndex(i, j);
    }
  }

  /** The only name registered twice is "index", by the first two entries. */
  lemma NamesOnlyRepeatForIndex(i: nat, j: nat)
    requires i < |UrlPatterns| && j < |UrlPatterns| && i != j
    requires UrlPatterns[i].name == UrlPatterns[j].name
    ensures i <= 1 && j <= 1
    ensures UrlPatterns[i] == Entry(Literal(""), "index")
  {
    var names := ["index", "index", "books", "book-detail", "authors", "author-detail", "my-borrowed"];
    assert forall k :: 0 <= k < |UrlPatterns| ==> UrlPatterns[k].name == names[k];
  }

  /** Builds the path a pattern matches with the given key, the way reversing
      fills `(?P<pk>\d+)` with the decimal form of the argument. None when the
      argument does not fit the pattern. */
  function Generate(p: Pattern, pk: Option<nat>): (r: Option<string>)
    ensures r.Some? <==> (p.Literal? <==> pk.None?)
    ensures r.Some? ==> MatchPattern(p, r.value) == Some(pk)
    ensures r.Some? && p.Numbered? ==> r.value == p.prefix + ShowNat(pk.value)
    ensures r.Some? && p.Literal? ==> r.value == p.text
  {
    match p
    case Literal(t) => if pk.None? then Some(t) else None
    case Numbered(prefix) =>
      if pk.Some? then
        var path := prefix + ShowNat(pk.value);
        assert path[..|prefix|] == prefix && path[|prefix|..] == ShowNat(pk.value);
        ParseShowNat(pk.value);
        Some(path)
      else None
  }

  /** Reversal over a table: the candidates registered under `name` are
      tried from the last declared to the first, and the first one the
      argument fits produces the path. */
  function ReverseIn(table: seq<Entry>, name: string, pk: Option<nat>): (r: Option<string>)
    ensures r.Some? ==> exists i :: 0 <= i < |table| && table[i].name == name && Generate(table[i].pattern, pk) == r
    ensures r.None? <==> forall i :: 0 <= i < |table| && table[i].name == name ==> Generate(table[i].pattern, pk).None?
  {
    if |table| == 0 then None
    else
      var last := table[|table| - 1];
      if last.name == name && Generate(last.pattern, pk).Some? then Generate(last.pattern, pk)
      else
        var r := ReverseIn(table[..|table| - 1], name, pk);
        assert forall i :: 0 <= i < |table| - 1 ==> table[..|table| - 1][i] == table[i];
        r
  }

  /** The route names of the table that take no key. */
  const PlainNames: set<string> := {"index", "books", "authors", "my-borrowed"}

  /** The route names of the table that take a key. */
  const DetailNames: set<string> := {"book-detail", "author-detail"}

  /** What each entry of the table produces when reversed: plain routes
      need no key and detail routes need one. */
  lemma EntryArity(i: nat)
    requires i < |UrlPatterns|
    ensures UrlPatterns[i].pattern.Literal? <==> UrlPatterns[i].name in PlainNames
    ensures UrlPatterns[i].pattern.Numbered? <==> UrlPatterns[i].name in DetailNames
  {
  }

  /** Reversal finds a path whenever some entry of the name fits the argument. */
  lemma ReverseInFinds(table: seq<Entry>, name: string, pk: Option<nat>, i: nat)
    requires i < |table| && table[i].name == name && Generate(table[i].pattern, pk).Some?
    ensures ReverseIn(table, name, pk).Some?
  {
  }

  /** Reversal over the catalog's table succeeds exactly for the names of
      the table called with their arity. */
  lemma ReverseCatalogDefined(name: string, pk: Option<nat>)
    ensures ReverseIn(UrlPatterns, name, pk).Some? <==>
              (name in PlainNames && pk.None?) || (name in DetailNames && pk.Some?)
  {
    if (name in PlainNames && pk.None?) || (name in DetailNames && pk.Some?) {
      var i: nat :=
        if name == "index" then 0 else if name == "books" then 2 else if name == "authors" then 4
        else if name == "my-borrowed" then 6 else if name == "book-detail" then 3 else 5;
      ReverseInFinds(UrlPatterns, name, pk, i);
    } else if ReverseIn(UrlPatterns, name, pk).Some? {
      var r := ReverseIn(UrlPatterns, name, pk);
      var i :| 0 <= i < |UrlPatterns| && UrlPatterns[i].name == name && Generate(UrlPatterns[i].pattern, pk) == r;
      EntryArity(i);
      assert false;
    }
  }

  /** What reversal over the catalog's table produces resolves back. */
  lemma ReverseCatalogSound(name: string, pk: Option<nat>)
    requires ReverseIn(UrlPatterns, name, pk).Some?
    ensures Resolve(ReverseIn(UrlPatterns, name, pk).value) == Some(Match(name, pk))
  {
    var r := ReverseIn(UrlPatterns, name, pk);
    var i :| 0 <= i < |UrlPatterns| && UrlPatterns[i].name == name && Generate(UrlPatterns[i].pattern, pk) == r;
    EntryMatchResolves(r.value, i);
  }

  /** Reverses a route name and argument to a path. It is defined exactly
      for the names of the table called with the arity their pattern takes,
      and the path it produces resolves back to the same name and key. */
  function Reverse(name: string, pk: Option<nat>): (r: Option<string>)
    ensures r.Some? <==> (name in PlainNames && pk.None?) || (name in DetailNames && pk.Some?)
    ensures r.Some? ==> Resolve(r.value) == Some(Match(name, pk))
  {
    ReverseCatalogDefined(name, pk);
    if ReverseIn(UrlPatterns, name, pk).Some? then
      ReverseCatalogSound(name, pk);
      ReverseIn(UrlPatterns, name, pk)
    else
      None
  }

  /** The position of each name in the table (the first, for "index"). */
  lemma EntryOfName(i: nat, name: string)
    requires i < |UrlPatterns| && UrlPatterns[i].name == name
    ensures name == "book-detail" ==> i == 3
    ensures name == "author-detail" ==> i == 5
    ensures name == "index" ==> i <= 1
  {
    var names := ["index", "index", "books", "book-detail", "authors", "author-detail", "my-borrowed"];
    assert forall k :: 0 <= k < |UrlPatterns| ==> UrlPatterns[k].name == names[k];
  }

  /** Reversing a detail route gives its prefix followed by the key's
      shortest decimal form. */
  lemma ReverseDetail(name: string, pk: nat)
    requires name in DetailNames
    ensures name == "book-detail" ==> Reverse(name, Some(pk)) == Some("book/" + ShowNat(pk))
    ensures name == "author-detail" ==> Reverse(name, Some(pk)) == Some("author/" + ShowNat(pk))
  {
    ReverseCatalogDefined(name, Some(pk));
    var r := ReverseIn(UrlPatterns, name, Some(pk));
    var i :| 0 <= i < |UrlPatterns| && UrlPatterns[i].name == name && Generate(UrlPatterns[i].pattern, Some(pk)) == r;
    EntryOfName(i, name);
  }

  /** Both registrations of the empty path reverse to the empty path. */
  lemma ReverseIndex()
    ensures Reverse("index", None) == Some("")
  {
  }

  /** Every resolution can be reversed, and the reversed path resolves to
      the same name and key (it differs from the original path only in
      leading zeros of the key). */
  lemma ResolveThenReverse(path: string)
    requires Resolve(path).Some?
    ensures Reverse(Resolve(path).value.name, Resolve(path).value.pk).Some?
    ensures Resolve(Reverse(Resolve(path).value.name, Resolve(path).value.pk).value) == Resolve(path)
  {
  }

  /** The list routes need their trailing slash. */
  lemma ResolveWithoutSlash()
    ensures Resolve("books") == None
    ensures Resolve("author") == None
    ensures Resolve("mybooks") == None
  {
  }

  /** A detail route needs digits and nothing after them. */
  lemma ResolveMalformedDetail()
    ensures Resolve("book/") == None
    ensures Resolve("book/12/") == None
    ensures Resolve("book/1a") == None
  {
  }

  /** Leading zeros are read as part of the number. */
  lemma ResolveLeadingZeros()
    ensures Resolve("book/007") == Some(Match("book-detail", Some(7)))
  {
    var path := "book/007";
    assert path[..5] == "book/" && path[5..] == "007";
    assert "007"[..2] == "00" && "00"[..1] == "0" && "0"[..0] == "";
    assert ParseNat("007") == 7;
    ResolveBookDetail(path);
  }
}

=== FILE: wrappers.dfy ===
/** Failure-carrying return types shared by the catalog and the URL resolver. */
module Wrappers {

  /** A value that may be absent: a nullable column, an unmatched path. */
  datatype Option<+T> = None | Some(value: T)

  /** The outcome of an operation that either yields a value or fails with an error. */
  datatype Result<+T, +E> = Success(value: T) | Failure(error: E)
}
